=== FILE: README.md ===
# Volatility analysis service: a Dafny model

This project models the core of a small memory-forensics web service. A user
uploads a memory image together with a comma-separated list of Volatility 3
plugin names. The service then works in four steps:

- It splits the list and queues one background task per plugin.
- It records each task as a `PENDING` row in the SQLite table `analysis`.
- The background task (`analyze_memory`) marks the row `STARTED`, runs the
  plugin through the Volatility command line and closes the row. A clean run
  closes it as `COMPLETED`, with the result file and a Gemini annotation of
  the plugin output. Otherwise the row is closed as `FAILED`.
- HTTP endpoints report one task's status, serve its result file, and list
  the 50 newest rows.

A second, in-process path (app/processor.py) runs several plugins on one
image. It annotates each output through Gemini's REST endpoint and keys the
results by plugin name.

Everything is modelled as pure functions over immutable values:

| module | file | what it holds |
|---|---|---|
| `Wrappers` | wrappers.dfy | `Option` and `Result` |
| `Text` | text.dfy | the Python string helpers the core relies on: `str.strip` with Python's whitespace set, one-character `split` and `join`, `os.path.basename`, two-argument POSIX `os.path.join`, `str(int)` |
| `PluginList` | plugins.dfy | parsing of the `plugins` form field |
| `TaskStore` | store.dfy | the `analysis` table as a sequence of rows in rowid order, with `save_to_db`, `update_db`, and the status, download and listing queries |
| `GeminiAnalyzer` | gemini.dfy | `analyze_with_gemini` of app/gemini_analyzer.py |
| `PyJson` | pyjson.dfy | decoded JSON values and Python's `v["key"]` and `v[0]` subscripts, with their exception texts |
| `Processor` | processor.dfy | the REST `analyze_with_gemini` and `run_multiple_plugins` of app/processor.py |
| `Worker` | worker.dfy | the Celery task `analyze_memory` |
| `Submission` | submission.dfy | the `POST /analyze/` handler, and an end-to-end scenario |

Collaborators that cannot be seen become values or function parameters:

- `update_db` faults: a map from the call's position within one execution to
  the message it raises.
- The Volatility command: the wait status `os.system` returns, or an exception.
- The result file: what `os.path.exists`/`getsize` report and what `read()`
  returns.
- The Gemini SDK: whether building the model raises, and a function from
  (model name, request) to a reply text or an exception message.
- `requests.post`: a function from (url, JSON body) to a reply or an exception.
- The Volatility framework in the processor: a function from (loop position,
  plugin name) to the rows' texts or an exception message.
- The Celery broker's task ids: `mint(k)`.
- The database clock: `clock(k)`.
- `GEMINI_API_KEY`: an `Option<string>`.
- `os.path.exists` for downloads: a predicate on paths.

The worker's result is the sequence of `update_db` calls it made, each
flagged with whether it took effect, plus what it returned or raised. The
store lemmas relate that sequence to what `GET /status/{task_id}` reports
afterwards.

The model follows the code as written, including where it is laxer than a
reader of the service's interface might expect:

- An empty plugin list is accepted. It creates no task and still replies
  "Processing started".
- `task_id` is not unique. `save_to_db` does not reject a duplicate id.
  `update_db` of an unknown id silently changes nothing. A query without
  `ORDER BY` has no order promised by SQL. The model assumes that the
  status and download queries read the first matching row in rowid order,
  the order in which SQLite scans a table with no index on `task_id`.
- `update_db` does not check the current status. A later write overwrites
  a terminal status, so the last writer wins.
- A `FAILED` write clears `result_path` and `gemini_analysis`. No diagnostic
  is stored: the failure text is only the task's return value.
- `ORDER BY created_at DESC` leaves ties in an unspecified order. The
  listing contract does not pin the order among rows of equal age.
- `Text.Strip` removes leading whitespace, then trailing whitespace, as
  `str.strip` does. It is written as one slice, which gives the same result.

## Model

| member | source | states |
|---|---|---|
| TaskStore.SaveToDb | app/main.py:81-84 | the table grows by exactly one row at the end: the given task id, plugin and image, `PENDING`, no result path, no annotation, and the clock's time as `created_at`; every earlier row is unchanged |
| TaskStore.SaveRegistersTask | app/main.py:81-84 | after an insert, lookups of every other id find the same row as before; a new id then reads `PENDING` with both columns empty |
| TaskStore.FirstMatch | app/main.py:163 | `fetchone` without `ORDER BY`, under the assumption that rows are scanned in rowid order: the first row with the id; there is none exactly when no row has the id |
| TaskStore.UpdateDb | app/main.py:76-79 | every row of the task gets status, result path and annotation overwritten; other rows and the row count are unchanged |
| TaskStore.UpdateUnknownIsNoop | app/main.py:76-79 | an update of an id with no row leaves the table exactly as it was; no error is raised |
| TaskStore.UpdateIdempotent | app/main.py:76-79 | repeating the same update changes nothing more |
| TaskStore.UpdateLastWriterWins | app/main.py:76-79 | of two updates of one task, only the later one shows; there is no guard on the current status |
| TaskStore.UpdatesCommute | app/main.py:76-79 | updates of two different tasks give the same table in either order |
| TaskStore.ApplyWrites | app/main.py:76-79 | a series of `update_db` calls for one task keeps the row count and every row's id, and leaves the rows of other tasks exactly as they were |
| TaskStore.ApplyTwo | app/main.py:76-79 | applying a series of two writes is the two `update_db` calls in order |
| TaskStore.ApplyWritesLast | app/main.py:76-79 | after a non-empty series of writes, each row of the task holds the last write's three columns |
| TaskStore.ApplyWritesKeepsLookup | app/main.py:76-79 | updates never change which row a lookup of any id finds |
| TaskStore.TaskStatus | app/main.py:160-168 | "not found" exactly when no row has the id; otherwise the status, result path and annotation of a row that has it |
| TaskStore.StatusAfterUpdate | app/main.py:76-79 | after `update_db` of an existing task, its status reads back as the three written columns |
| TaskStore.StatusAfterWrites | app/main.py:76-79 | after a series of writes to an existing task, its status reads back as the last write |
| TaskStore.StatusOtherTask | app/main.py:76-79 | updating one task does not change what the status query reports for another |
| TaskStore.DownloadResult | app/main.py:170-178 | a file is served exactly when the task's first row has a non-empty result path naming an existing file; the download name is that path's basename and holds no `/`; the path served is the one on that first row, the one checked to exist |
| TaskStore.SaveKeepsResultRule | app/main.py:81-84 | inserting keeps the rule that a result path is stored only with `COMPLETED` |
| TaskStore.ApplyKeepsResultRule | app/main.py:76-79 | writes that obey the rule keep it for the whole table |
| TaskStore.DownloadOnlyCompleted | app/main.py:170-178 | under the rule, a served download implies that the status query reports `COMPLETED` |
| TaskStore.InsertByAge | app/main.py:184 | inserting into a newest-first sequence keeps it newest first and adds exactly that row, as a multiset |
| TaskStore.SortNewest | app/main.py:184 | `ORDER BY created_at DESC`: newest first, and a permutation of the table |
| TaskStore.SelectRecent | app/main.py:184 | `LIMIT`: min(limit, rows) rows, newest first, drawn from the table; no row left out is newer than a row selected |
| TaskStore.OlderTail | app/main.py:184 | cutting a newest-first sequence keeps the prefix ordered; everything left out is no newer than every row kept |
| TaskStore.AllResults | app/main.py:181-189 | at most 50 summaries, min(50, rows) of them, each the six listed columns of some row of the table; they summarise a newest-first selection of rows drawn from the table without repeats, and no row left out is newer than a row listed |
| TaskStore.SummarizeAll | app/main.py:186-189 | one summary per row, in order |
| PluginList.ParsePlugins | app/main.py:138 | one name per comma-separated piece that is not all whitespace |
| PluginList.Clean | app/main.py:138 | one stripped name per non-blank piece |
| PluginList.CleanValid | app/main.py:138 | from comma-free pieces, every name kept is non-empty, comma-free and stripped |
| PluginList.ParsedNamesValid | app/main.py:138 | every parsed name is non-empty, comma-free and has no whitespace at either end |
| PluginList.CleanAppend | app/main.py:138 | cleaning distributes over concatenation, so order is kept |
| PluginList.ParseAppend | app/main.py:138 | the list for `a,b` is the list for `a` followed by the list for `b` |
| PluginList.ParseSingle | app/main.py:138 | a comma-free piece gives nothing when blank, else its stripped self |
| PluginList.ParseJoin | app/main.py:138 | joining valid names with commas and parsing gives the same names back, in order and with repetitions |
| PluginList.ParseJoinStep | app/main.py:138 | a valid name in front of a list that round-trips still round-trips |
| PluginList.ParseTwo | app/main.py:138 | `a,b` of two valid names parses to exactly `[a, b]` |
| PluginList.ParseValidName | app/main.py:138 | a valid name parses to itself alone |
| PluginList.ParseCons | app/main.py:138 | for an `a` that parses to `[a]`, parsing `a,rest` puts `a` in front of the list for `rest` |
| PluginList.ParseAllBlank | app/main.py:138 | a form of only commas and whitespace gives an empty list, not an error |
| PluginList.BlankPiece | app/main.py:138 | every piece of such a form is blank |
| PluginList.CleanBlank | app/main.py:138 | cleaning blank pieces gives nothing |
| Text.Strip | app/main.py:138 | the result has no whitespace at either end, is the input minus a whitespace prefix and a whitespace suffix, and is empty exactly when the input is all whitespace |
| Text.StripStripped | app/main.py:138 | stripping leaves a stripped string unchanged |
| Text.Split | app/main.py:138 | one more piece than separators; no piece holds the separator |
| Text.JoinSplit | app/main.py:138 | joining the pieces of a split gives the original string back |
| Text.SplitJoin | app/main.py:138 | for a non-empty list of separator-free pieces, splitting their join gives the pieces back |
| Text.SplitAppend | app/main.py:138 | splitting at a separator splits the two sides independently |
| Text.SplitNoSep | app/main.py:138 | a string without the separator splits into itself |
| Text.Basename | app/main.py:93 | the longest `/`-free suffix of the path |
| Text.PathJoin | app/main.py:93 | an absolute second part replaces the first; otherwise the second follows the first after one `/`, which is added only when the first is non-empty and does not already end in `/`, so the length is exactly the two parts plus that separator |
| Text.IntToString | app/main.py:104 | `str(n)`: non-empty, with a leading `-` exactly for negative numbers |
| Text.IntToStringValue | app/main.py:104 | after the sign, non-empty decimal digits without a leading zero whose value is the magnitude of `n` |
| Text.DigitsOf | app/main.py:104 | the decimal digits of a natural number, denoting it, with no leading zero |
| Text.IntToStringInjective | app/main.py:104 | different integers give different texts |
| Submission.FanOut | app/main.py:141-152 | plugin `k` gets id `mint(k)`, one queued work item, one appended `PENDING` row and one reply entry, all in list order; existing rows are kept |
| Submission.Analyze | app/main.py:130-158 | one reply entry, one queued item and one new `PENDING` row per parsed plugin, in order and with duplicates kept; an empty list creates nothing; the reply's status is always `Processing started` |
| Submission.SubmittedTasksArePending | app/main.py:130-168 | with fresh, distinct ids, every task in the reply can be queried at once and reads `PENDING` with both columns empty |
| Submission.NewRowsFound | app/main.py:160-168 | a table extended by fresh `PENDING` rows finds each new row under its own id |
| Submission.ScenarioParse | app/main.py:138 | `pslist,psscan` parses to `["pslist", "psscan"]` |
| Submission.FanOutTwo | app/main.py:141-152 | two plugins give two reply entries, in list order |
| Submission.SubmitTwoTasks | app/main.py:130-158 | a form that parses to two plugins gives those two reply entries, in order |
| Submission.SubmitTwoRows | app/main.py:130-158 | it also gives two new rows with the two minted ids, in order |
| Submission.CleanRunWrites | app/main.py:95-113 | a clean run with a service that answers `clean` writes `STARTED`, then `COMPLETED` with the result file and `clean` |
| Submission.FailingRunWrites | app/main.py:99-104 | a run whose command exits with code 1 writes `STARTED`, then `FAILED` |
| Submission.TwoTasksUpdated | app/main.py:76-79 | two tasks' write series on separate rows each read back as their own last write |
| Submission.Scenario | app/main.py:86-168 | submit `pslist,psscan`, run one cleanly and one failing; afterwards one reads `COMPLETED` with its result file and annotation, the other `FAILED` with no result path |
| Worker.ResultFileShape | app/main.py:93 | `ResultFile`: the result file depends on the image only through its basename; for a plugin name not starting with `/` its text starts with the output directory's text and ends with `<plugin>_<basename>.txt`; a plugin name starting with `/` discards the output directory |
| Worker.FailureTextsShape | app/main.py:104-121 | `ExitCodeText` (line 104), `NoOutputText` (line 116) and `ErrorText` (line 121) each name the plugin right after `Plugin '` and a closing quote; the first ends with the exit status, the second with ` produced no output`, the third with the exception message |
| Worker.FailureTextsDiffer | app/main.py:104-121 | for one plugin the three failure texts are pairwise different, whatever the status and the message |
| Worker.Decide | app/main.py:96-116 | a closing write is always terminal; `COMPLETED` exactly on a clean exit with a non-empty, readable result file, and then it carries the result file and the annotation of that output; every other closing write is `FAILED` with both columns cleared; an exception from the engine, from the result-file check or from the read is thrown with its own message |
| Worker.TryBlock | app/main.py:95-116 | `STARTED` is store call 0 and the closing write is call 1; a call takes effect exactly when it does not raise; control leaves normally exactly when the closing write took effect; that write is terminal and its columns fit its status |
| Worker.AnalyzeMemory | app/main.py:86-124 | `STARTED` first; every later write is terminal and only the last can take effect; the handler writes `FAILED`; when the `STARTED` write raises, the handler's `FAILED` is the only other write; the task returns exactly when its last write took effect; `COMPLETED` is only ever the closing write after an applied `STARTED` and a clean, non-empty output; a `COMPLETED` write carries the result file and an annotation, any other clears both |
| Worker.Applied | app/main.py:76-79 | the writes that took effect: each is the write of an attempt that took effect; all of them, in order, when every attempt took effect, and none when none did |
| Worker.AppliedAppend | app/main.py:76-79 | the writes that took effect in two runs of calls in a row are those of the first, then those of the second |
| Worker.AppliedOfExecution | app/main.py:95-121 | in an execution-shaped attempt list, the applied writes are the first if it took effect, then the last if it took effect |
| Worker.CountOfExecution | app/main.py:95-121 | such a list applies exactly one terminal write, and last, when its last attempt took effect, and none otherwise |
| Worker.TerminalDiscipline | app/main.py:86-124 | a returning execution leaves exactly one applied terminal write, and it is the last applied write; an escaping exception leaves none |
| Worker.DecideIgnoresService | app/main.py:106-111 | the Gemini service changes at most the annotation: the same throw or close, the same status and the same return value |
| Worker.EnrichmentOnlyAfterOutput | app/main.py:106-111 | unless `STARTED` was written and a clean, non-empty output was read, the Gemini service has no influence at all |
| Worker.EnrichmentCannotFail | app/main.py:106-111 | whatever the Gemini service does, the statuses written, which writes take effect and whether the task returns stay the same |
| Worker.TryBlockIgnoresService | app/main.py:95-116 | the `try` block makes the same store calls, with the same statuses and effects, under any Gemini service |
| Worker.NonZeroExitFails | app/main.py:99-104 | when both store calls succeed, a non-zero wait status writes `STARTED`, then `FAILED`, and returns the exit-code text |
| Worker.CleanRunCompletes | app/main.py:106-113 | when both store calls succeed, a clean exit with a non-empty file writes `STARTED`, then `COMPLETED` with the result file and the annotation of the file's text, and returns the result file |
| Worker.NoOutputFails | app/main.py:106-116 | when both store calls succeed, a clean exit with a missing or empty file writes `STARTED`, then `FAILED`, and returns the no-output text |
| Worker.ExceptionFails | app/main.py:118-121 | an exception in the `try` block, when the handler's own write succeeds, ends with an applied `FAILED` and returns the error text |
| Worker.EngineErrorFails | app/main.py:95-121 | when both store calls succeed, an exception from `os.system` writes `STARTED`, then `FAILED`, and returns the error text with the engine's message |
| Worker.CheckErrorFails | app/main.py:95-121 | the same for an exception from the result-file check, with its message |
| Worker.ReadErrorFails | app/main.py:95-121 | the same for an exception from reading a non-empty result file, with its message |
| Worker.StartedWriteErrorFails | app/main.py:95-121 | when `update_db(STARTED)` raises and the handler's write succeeds, the handler writes `FAILED` and returns the error text with the store's message |
| Worker.ExecutionLeavesRow | app/main.py:86-168 | on a table holding the task, a returning execution leaves the row terminal, with a result path exactly when `COMPLETED`, and then the derived result file; after an escaping exception the row reads `STARTED` or as before |
| Worker.RowAfterAttempts | app/main.py:76-79 | the row-level consequence of an execution-shaped attempt list whose writes fit the column rule |
| GeminiAnalyzer.AnalyzeWithGemini | app/gemini_analyzer.py:6-36 | empty output gives the fixed "no output" text without building a model; otherwise the reply text unchanged, or the error prefix followed by the message of the model construction or the request that raised |
| GeminiAnalyzer.EmptyOutputSkipsService | app/gemini_analyzer.py:10-11 | for an empty output the service does not matter |
| GeminiAnalyzer.FailureIsMarked | app/gemini_analyzer.py:33-36 | a failing service yields text starting with the error prefix; a non-failing one yields exactly the reply text |
| GeminiAnalyzer.TextServiceGetsPrompt | app/gemini_analyzer.py:14-34 | a service that sees only text receives the rendered prompt under model `models/gemini-2.5-pro`, and its reply or error becomes the result |
| GeminiAnalyzer.Fill | app/gemini_analyzer.py:17-32 | the plugin name and output appear verbatim, each at a fixed offset given by the template |
| GeminiAnalyzer.FillInjective | app/gemini_analyzer.py:17-32 | equal filled templates with names of equal length come from the same name and output |
| GeminiAnalyzer.PromptPlacesParts | app/gemini_analyzer.py:17-32 | `Prompt`: the plugin name follows the template's head verbatim, and the plugin output comes verbatim just before the template's tail |
| GeminiAnalyzer.PromptInjective | app/gemini_analyzer.py:17-32 | the prompt determines the plugin output, and the plugin name among names of one length |
| PyJson.GetKey | app/processor.py:28 | `v["key"]` succeeds exactly on a dict holding the key and gives its value; a missing key raises with the quoted key |
| PyJson.GetFirst | app/processor.py:28 | `v[0]` succeeds exactly on a non-empty list or string and gives the first element or character |
| PyJson.Navigate | app/processor.py:28 | a chain of subscripts: the empty chain gives the value itself and a one-step chain is that subscript |
| PyJson.NavigateAppend | app/processor.py:28 | following two chains in a row is following the first, then the second from where it led; a failure along the first is the failure of the whole |
| Processor.RequestText | app/processor.py:20 | the plugin name and output appear verbatim at fixed offsets of the instruction text |
| Processor.RequestBody | app/processor.py:17-23 | the body's `contents[0].parts[0].text` is the instruction text |
| Processor.RequestPathFindsText | app/processor.py:17-23 | that subscript chain finds the text placed in a body of the request's shape |
| Processor.ReplyPathFindsText | app/processor.py:28 | the subscript chain finds the text in a reply of the documented shape |
| Processor.StatusError | app/processor.py:27 | `raise_for_status` raises exactly for status codes 400 to 599 |
| Processor.Exchange | app/processor.py:25-28 | the request stages fail in order, each with its own message: a raising POST, then an error status with the `raise_for_status` text, then a body that is not JSON, then a missing step of the reply path with the subscript's own message; it succeeds exactly when none of them raises, with the value at the reply path |
| Processor.AnalyzeWithGemini | app/processor.py:11-30 | no key, or an empty one, gives the fixed error text; otherwise a failure of the request, the status check, the JSON decoding or the subscripts becomes the API error prefix and its message, and success gives the value found, as is |
| Processor.NoKeyNoRequest | app/processor.py:12-14 | without a key no request is made, so the HTTP collaborator does not matter |
| Processor.WellFormedReplyGivesText | app/processor.py:25-28 | a 2xx reply of the documented shape gives exactly its text |
| Processor.ErrorStatusIsMarked | app/processor.py:25-30 | a 4xx or 5xx reply always gives text starting with the API error prefix, whatever the body |
| Processor.RenderRows | app/processor.py:54-58 | the rendered output is empty exactly when there are no rows |
| Processor.RenderRowsSplit | app/processor.py:54-58 | for rows without newlines, the rendered output splits at newlines back into the rows, plus one final empty piece |
| Processor.EntryFor | app/processor.py:44-70 | a raising plugin gets the failure text and the fixed summary; one that runs gets its rendered rows and their annotation |
| Processor.LastIndex | app/processor.py:61-64 | the position of the last occurrence of a name |
| Processor.DedupSpec | app/processor.py:61-64 | the key order holds every name of the list exactly once |
| Processor.FirstIndex | app/processor.py:61-64 | the position of the first occurrence of a name |
| Processor.DedupFirstOccurrence | app/processor.py:61-64 | the key order is the order of first occurrence: of two keys, the earlier one first occurs earlier in the list |
| Processor.FirstOccurrenceExtend | app/processor.py:61-64 | appending a name keeps a first-occurrence order of the prefix, and a name not seen before may join its end |
| Processor.FirstIndexPrefix | app/processor.py:61-64 | appending a name does not move the first occurrence of a name already present |
| Processor.RunMultiplePlugins | app/processor.py:33-72 | exactly one key per distinct name, in order of first appearance; each key holds the entry of its last occurrence, so a failing plugin neither stops the loop nor touches another name's entry |
| Processor.Collect | app/processor.py:43-72 | the same for any per-iteration entry function |
| Processor.OrderStep | app/processor.py:61-64 | one iteration adds the name to the key set, and to the key order only when it is new, as a dict assignment does |
| Processor.EntriesStep | app/processor.py:61-70 | after one iteration, every name seen so far holds the entry of its last occurrence |
| Processor.LastIndexExtend | app/processor.py:61-64 | appending a different name does not move the last occurrence of another |

## Left out

- Metrics and timing are left out: Prometheus counters and histograms, the
  metrics HTTP server, the `/metrics` endpoint and the `finally` block's
  duration measurement. None of them affects a stored value or a reply.
- HTML pages, templates, static files and FastAPI routing are left out. So
  are JSON response wrappers (404 is a reply value) and writing the upload
  to disk.
- The upload file name is used as given. It is not sanitised, and the model
  keeps that behaviour.
- Worker.ResultFileShape: plugin names are not sanitised either. A name with
  `..` segments, such as `../../etc/x`, gives a result file whose text starts
  with the output directory but which resolves outside it. The lemma states
  the textual prefix only, because path resolution is not modelled.
- Celery and Redis are left out: broker configuration, task delivery and
  retries. Queued work is a list of work items, and the worker is modelled
  for one execution.
- The window in which a task can run before its row is inserted is not
  modelled. `delay` is called before `save_to_db`, so in that window the
  task's `update_db` calls match no row.
- The shell command line and its quoting are left out. The Volatility
  engine is an oracle that gives a wait status.
- SQL execution, connections and schema creation are left out. The table is
  a sequence of rows. `init_db` is only the `Row` type. `created_at` is the
  clock parameter's integer.
- Module import side effects are left out: directory creation, `init_db()`
  at import time and `genai.configure`.
- app/models.py, app/tasks.py and app/worker.py are not part of this model.
- The processor's framework setup before the loop is left out: the
  context, automagics, `construct_plugin` and the configuration paths.
  Everything that can raise inside the loop body is folded into one
  outcome per iteration.
- GeminiAnalyzer.AnalyzeWithGemini: the SDK receives the prompt as a
  `Request` holding the plugin name and output. It does not receive the
  rendered string. This generalises any service that sees only the text,
  and `TextServiceGetsPrompt` proves agreement with such services.
- PyJson.GetKey: JSON floats are not modelled; numbers are integers only.
  Exception texts follow CPython 3.11 wording.
- Submission.FanOut: a `delay` or `save_to_db` call that raises part way
  through the loop (app/main.py lines 146-147) is not modelled. Such a raise
  leaves the plugins before it queued and inserted and makes the endpoint
  answer with a server error. Both collaborators are modelled as succeeding.
- Submission.Analyze: the same raising `delay` or `save_to_db` is left out,
  for the same reason.
- Processor.StatusError: the url in the `HTTPError` text is the request
  endpoint. Redirects are not modelled.
- Processor.AnalyzeWithGemini: the environment lookup is a parameter.
  `requests` internals are the HTTP oracle.
- Text.IntToString: its own contract states only non-emptiness and the sign.
  It builds both the exit-code text (app/main.py line 104) and the status
  code in `raise_for_status`'s message. The decimal value is stated by
  `IntToStringValue`, kept apart so that the worker's proofs stay small.
- Text.Strip: whitespace is the fixed set of code points for which
  Python's `str.isspace` is true. No Unicode normalisation is done.

=== FILE: gemini.dfy ===
/**
 `analyze_with_gemini` of app/gemini_analyzer.py: the annotation the worker
 stores next to a completed result. The Gemini SDK is a collaborator: whether
 building the model object raises, and what `generate_content` does with a
 given model name and prompt. The function itself never raises.
 */
module GeminiAnalyzer {
  import opened Wrappers
  import opened Text

  const ModelName := "models/gemini-2.5-pro"
  const NoOutputMessage := "No output to analyze."
  const ErrorPrefix := "Error during Gemini analysis: "

  /** What `model.generate_content(prompt)` followed by `.text` gives: the text, or `str(e)`. */
  datatype Generation = Generated(text: string) | GenerationRaised(message: string)

  /**
   The prompt of one request, identified by the two values it embeds; its
   text is `Prompt(pluginName, pluginOutput)`.
   */
  datatype Request = Request(pluginName: string, pluginOutput: string)

  /**
   The SDK as seen from this function: `constructError` is `str(e)` when
   `GenerativeModel(name)` raises, `generate(name, request)` the outcome of
   sending the request's prompt. A service that looks only at the prompt
   text is the special case `generate(n, q) == g(n, PromptOf(q))`.
   */
  datatype Service = Service(constructError: Option<string>, generate: (string, Request) -> Generation)

  const PromptHead: string :=
    "\n"
      + "        As a senior cybersecurity malware analyst, meticulously analyze the following Volatility 3 plugin output from '"

  const PromptMiddle: string :=
    "'. Your analysis must be detailed and actionable.\n"
      + "\n"
      + "        Perform the following checks:\n"
      + "        1.  **Duplicate System Processes:** Look for multiple instances of critical Windows processes that should normally only have one instance (e.g., lsass.exe, csrss.exe). This is a major red flag.\n"
      + "        2.  **Parent-Child Relationships:** Scrutinize the Parent Process ID (PPID) for each process. Are there any legitimate system processes spawned by unusual parents (e.g., lsass.exe spawned by anything other than wininit.exe)?\n"
      + "        3.  **Suspicious Names:** Identify any processes with names that are misspelled versions of legitimate processes (e.g., \"svchost.exe\" vs \"scvhost.exe\").\n"
      + "        4.  **Known Malware Indicators:** Based on the process names and relationships, identify any potential malware families or techniques.\n"
      + "\n"
      + "        Provide a summary of your findings, highlighting the most suspicious processes first. If you find a critical indicator, state it clearly. If nothing suspicious is found, explicitly state that the output appears clean.\n"
      + "\n"
      + "        **Volatility Plugin Output:**\n"
      + "        ---\n"
      + "        "

  const PromptTail: string :=
    "\n"
      + "        ---\n"
      + "        "

  /**
   A template filled in: the plugin name and the plugin output appear in it
   verbatim, each at a fixed offset given by the template's parts.
   */
  function Fill(head: string, name: string, middle: string, output: string, tail: string): (p: string)
    ensures |p| == |head| + |name| + |middle| + |output| + |tail|
    ensures p[..|head|] == head
    ensures p[|head|..|head| + |name|] == name
    ensures p[|head| + |name| + |middle|..|p| - |tail|] == output
    ensures p[|p| - |tail|..] == tail
  {
    Embed(head, name, middle, output, tail);
    head + name + middle + output + tail
  }

  /** A filled template determines the name (given its length) and the output. */
  lemma FillInjective(head: string, middle: string, tail: string, n1: string, o1: string, n2: string, o2: string)
    requires |n1| == |n2|
    requires Fill(head, n1, middle, o1, tail) == Fill(head, n2, middle, o2, tail)
    ensures n1 == n2 && o1 == o2
  {
    var p := Fill(head, n1, middle, o1, tail);
    assert n1 == p[|head|..|head| + |n1|] == n2;
  }

  /** The instruction text sent to the model. */
  function Prompt(pluginName: string, pluginOutput: string): string {
    Fill(PromptHead, pluginName, PromptMiddle, pluginOutput, PromptTail)
  }

  /**
   The plugin name follows the template's head verbatim, and the plugin
   output comes verbatim just before its tail.
   */
  lemma PromptPlacesParts(pluginName: string, pluginOutput: string)
    ensures var p := Prompt(pluginName, pluginOutput);
      && |PromptHead| + |pluginName| + |pluginOutput| + |PromptTail| <= |p|
      && p[|PromptHead|..|PromptHead| + |pluginName|] == pluginName
      && p[|p| - |PromptTail| - |pluginOutput|..|p| - |PromptTail|] == pluginOutput
  {
  }

  /** The prompt determines the name and the output it was built from. */
  lemma PromptInjective(n1: string, o1: string, n2: string, o2: string)
    requires |n1| == |n2|
    requires Prompt(n1, o1) == Prompt(n2, o2)
    ensures n1 == n2 && o1 == o2
  {
    FillInjective(PromptHead, PromptMiddle, PromptTail, n1, o1, n2, o2);
  }

  /** The text of a request's prompt. */
  function PromptOf(q: Request): string {
    Prompt(q.pluginName, q.pluginOutput)
  }

  /** A service that sees only the model name and the prompt text. */
  function TextService(constructError: Option<string>, g: (string, string) -> Generation): Service {
    Service(constructError, (name, q) => g(name, PromptOf(q)))
  }

  /**
   `analyze_with_gemini(plugin_output, plugin_name)`: an empty output gives
   the fixed "nothing to analyze" text; otherwise the model's reply text
   unchanged, or the error prefix followed by the message of whatever raised.
   */
  function AnalyzeWithGemini(pluginOutput: string, pluginName: string, svc: Service): (r: string)
    ensures pluginOutput == [] ==> r == NoOutputMessage
    ensures pluginOutput != [] && svc.constructError.Some? ==> r == ErrorPrefix + svc.constructError.value
    ensures pluginOutput != [] && svc.constructError.None? ==>
      match svc.generate(ModelName, Request(pluginName, pluginOutput))
      case Generated(text) => r == text
      case GenerationRaised(m) => r == ErrorPrefix + m
  {
    if pluginOutput == [] then NoOutputMessage
    else match svc.constructError
      case Some(e) => ErrorPrefix + e
      case None =>
        match svc.generate(ModelName, Request(pluginName, pluginOutput))
        case Generated(text) => text
        case GenerationRaised(e) => ErrorPrefix + e
  }

  /** For an empty output the model is neither built nor asked: the service does not matter. */
  lemma EmptyOutputSkipsService(pluginName: string, svc1: Service, svc2: Service)
    ensures AnalyzeWithGemini([], pluginName, svc1) == AnalyzeWithGemini([], pluginName, svc2)
  {
  }

  /** Whether the service answers or raises, the result is text, and a failure is marked as one. */
  predicate ServiceFails(pluginOutput: string, pluginName: string, svc: Service) {
    pluginOutput != [] &&
    (svc.constructError.Some? || svc.generate(ModelName, Request(pluginName, pluginOutput)).GenerationRaised?)
  }

  /**
   A failing service yields a non-empty annotation that starts with the error
   prefix; a result without that prefix therefore comes from a successful reply
   (or from the empty-output short cut).
   */
  lemma FailureIsMarked(pluginOutput: string, pluginName: string, svc: Service)
    ensures ServiceFails(pluginOutput, pluginName, svc) ==>
      var r := AnalyzeWithGemini(pluginOutput, pluginName, svc);
      |ErrorPrefix| <= |r| && r[..|ErrorPrefix|] == ErrorPrefix
    ensures !ServiceFails(pluginOutput, pluginName, svc) && pluginOutput != [] ==>
      AnalyzeWithGemini(pluginOutput, pluginName, svc)
        == svc.generate(ModelName, Request(pluginName, pluginOutput)).text
  {
  }

  /**
   Against a service that sees only text, a non-empty output is analysed by
   sending the rendered prompt to the pinned model; the reply text, or the
   marked error, is the result.
   */
  lemma TextServiceGetsPrompt(pluginOutput: string, pluginName: string, g: (string, string) -> Generation)
    requires pluginOutput != []
    ensures AnalyzeWithGemini(pluginOutput, pluginName, TextService(None, g))
         == match g(ModelName, Prompt(pluginName, pluginOutput))
            case Generated(text) => text
            case GenerationRaised(m) => ErrorPrefix + m
  {
    assert TextService(None, g).generate(ModelName, Request(pluginName, pluginOutput))
        == g(ModelName, PromptOf(Request(pluginName, pluginOutput)));
  }
}

=== FILE: plugins.dfy ===
/**
 The plugin list of a submission: the form field is split on commas, each
 piece is stripped, and blank pieces are dropped (app/main.py line 138).
 Order is kept and duplicates are not removed.
 */
module PluginList {
  import opened Text

  /** A name the parser can produce: non-empty, comma-free, no whitespace at its ends. */
  predicate ValidName(p: string) {
    p != [] && ',' !in p && Stripped(p)
  }

  predicate Blank(piece: string) {
    AllSpace(piece)
  }

  function CountNonBlank(pieces: seq<string>): nat {
    if pieces == [] then 0
    else (if Blank(pieces[0]) then 0 else 1) + CountNonBlank(pieces[1..])
  }

  /** Strip every piece and drop those that strip to nothing. */
  function Clean(pieces: seq<string>): (r: seq<string>)
    ensures |r| == CountNonBlank(pieces)
  {
    if pieces == [] then []
    else
      var p := Strip(pieces[0]);
      (if p == [] then [] else [p]) + Clean(pieces[1..])
  }

  /** Of comma-free pieces, cleaning keeps only valid names. */
  lemma {:induction false} CleanValid(pieces: seq<string>)
    requires forall i :: 0 <= i < |pieces| ==> ',' !in pieces[i]
    ensures forall i :: 0 <= i < |Clean(pieces)| ==> ValidName(Clean(pieces)[i])
  {
    if pieces != [] {
      var p := Strip(pieces[0]);
      assert ',' !in p by {
        assert forall k :: 0 <= k < |p| ==> p[k] == pieces[0][LeadingSpace(pieces[0]) + k];
      }
      CleanValid(pieces[1..]);
    }
  }

  /**
   `[p.strip() for p in plugins.split(",") if p.strip()]`: one name per
   non-blank comma-separated piece.
   */
  function ParsePlugins(form: string): (names: seq<string>)
    ensures |names| == CountNonBlank(Split(form, ','))
  {
    Clean(Split(form, ','))
  }

  /** Every parsed name is non-empty, comma-free and has no whitespace at its ends. */
  lemma ParsedNamesValid(form: string)
    ensures forall i :: 0 <= i < |ParsePlugins(form)| ==> ValidName(ParsePlugins(form)[i])
  {
    CleanValid(Split(form, ','));
  }

  lemma {:induction false} CleanAppend(a: seq<string>, b: seq<string>)
    ensures Clean(a + b) == Clean(a) + Clean(b)
  {
    if a == [] {
      assert a + b == b;
    } else {
      var p := Strip(a[0]);
      var head := if p == [] then [] else [p];
      assert (a + b)[0] == a[0];
      assert (a + b)[1..] == a[1..] + b;
      CleanAppend(a[1..], b);
      assert Clean(a + b) == head + (Clean(a[1..]) + Clean(b));
      assert head + (Clean(a[1..]) + Clean(b)) == (head + Clean(a[1..])) + Clean(b);
    }
  }

  /** The list for `a,b` is the list for `a` followed by the list for `b`. */
  lemma ParseAppend(a: string, b: string)
    ensures ParsePlugins(a + "," + b) == ParsePlugins(a) + ParsePlugins(b)
  {
    SplitAppend(a, ',', b);
    CleanAppend(Split(a, ','), Split(b, ','));
  }

  /** A piece without commas yields its stripped self, or nothing when blank. */
  lemma ParseSingle(piece: string)
    requires ',' !in piece
    ensures ParsePlugins(piece) == if Blank(piece) then [] else [Strip(piece)]
  {
    SplitNoSep(piece, ',');
    assert Clean([piece]) == (if Strip(piece) == [] then [] else [Strip(piece)]) + Clean([]);
  }

  /**
   Joining valid names with commas and parsing the result gives the same
   names back, in the same order and with the same repetitions.
   */
  lemma {:induction false} ParseJoin(names: seq<string>)
    requires forall i :: 0 <= i < |names| ==> ValidName(names[i])
    ensures ParsePlugins(Join(names, ',')) == names
  {
    if |names| == 1 {
      ParseValidName(names[0]);
      assert Join(names, ',') == names[0];
    } else if names != [] {
      ParseJoin(names[1..]);
      ParseJoinStep(names[0], names[1..]);
      assert [names[0]] + names[1..] == names;
    }
  }

  /** The inductive step of ParseJoin: a valid name in front of a list that already round-trips. */
  lemma ParseJoinStep(first: string, rest: seq<string>)
    requires rest != [] && ValidName(first)
    requires ParsePlugins(Join(rest, ',')) == rest
    ensures ParsePlugins(Join([first] + rest, ',')) == [first] + rest
  {
    var names := [first] + rest;
    assert names[0] == first && names[1..] == rest;
    assert Join(names, ',') == first + "," + Join(rest, ',');
    ParseValidName(first);
    ParseCons(first, Join(rest, ','), rest);
  }

  /** Two valid names joined by a comma parse to exactly those two names. */
  lemma ParseTwo(a: string, b: string)
    requires ValidName(a) && ValidName(b)
    ensures ParsePlugins(a + "," + b) == [a, b]
  {
    ParseValidName(a);
    ParseValidName(b);
    ParseCons(a, b, [b]);
  }

  /** A valid name parses to itself alone. */
  lemma ParseValidName(name: string)
    requires ValidName(name)
    ensures ParsePlugins(name) == [name]
  {
    ParseSingle(name);
    StripStripped(name);
  }

  /** Parsing `a,rest` puts the single name `a` in front of the list for `rest`. */
  lemma ParseCons(a: string, restForm: string, rest: seq<string>)
    requires ParsePlugins(a) == [a]
    requires ParsePlugins(restForm) == rest
    ensures ParsePlugins(a + "," + restForm) == [a] + rest
  {
    ParseAppend(a, restForm);
  }

  /** A form of whitespace and commas only gives an empty list, not an error. */
  lemma {:induction false} ParseAllBlank(form: string)
    requires forall i :: 0 <= i < |form| ==> form[i] == ',' || IsSpace(form[i])
    ensures ParsePlugins(form) == []
  {
    var pieces := Split(form, ',');
    JoinSplit(form, ',');
    forall j | 0 <= j < |pieces| ensures Blank(pieces[j]) {
      BlankPiece(pieces, j, form);
    }
    CleanBlank(pieces);
  }

  lemma {:induction false} BlankPiece(pieces: seq<string>, j: nat, form: string)
    requires j < |pieces| && Join(pieces, ',') == form
    requires forall i :: 0 <= i < |form| ==> form[i] == ',' || IsSpace(form[i])
    requires forall i :: 0 <= i < |pieces| ==> ',' !in pieces[i]
    ensures Blank(pieces[j])
  {
    if j == 0 {
      forall k | 0 <= k < |pieces[0]| ensures IsSpace(pieces[0][k]) {
        assert pieces[0][k] == form[k];
      }
    } else {
      var rest := Join(pieces[1..], ',');
      assert form == pieces[0] + [','] + rest;
      assert forall i :: 0 <= i < |rest| ==> rest[i] == form[|pieces[0]| + 1 + i];
      BlankPiece(pieces[1..], j - 1, rest);
    }
  }

  lemma {:induction false} CleanBlank(pieces: seq<string>)
    requires forall i :: 0 <= i < |pieces| ==> ',' !in pieces[i] && Blank(pieces[i])
    ensures Clean(pieces) == []
  {
    if pieces != [] {
      CleanBlank(pieces[1..]);
    }
  }
}

=== FILE: processor.dfy ===
/**
 app/processor.py: the REST variant of the Gemini annotation and the
 in-process runner that applies several Volatility plugins to one image and
 keys their outputs and annotations by plugin name. The environment variable,
 the HTTP POST and the Volatility framework are collaborators.
 */
module Processor {
  import opened Wrappers
  import opened Text
  import opened PyJson

  const MissingKeyMessage := "[Error] GEMINI_API_KEY not set in environment."
  const ApiErrorPrefix := "[Gemini API Error] "
  const PluginFailedSummary := "AI analysis not available due to plugin failure."
  const EndpointBase := "https://generativelanguage.googleapis.com/v1beta/models/gemini-pro:generateContent?key="

  /** The body of an HTTP reply once `.json()` is called on it. */
  datatype Body = Parsed(value: Json) | NotJson(message: string)

  /** What `requests.post` gives: an exception, or a reply with status, reason phrase and body. */
  datatype HttpReply = PostRaised(message: string) | Reply(status: int, reason: string, body: Body)

  function Endpoint(apiKey: string): string {
    EndpointBase + apiKey
  }

  const TextHead := "You are a cybersecurity analyst.\n\nHere is the Volatility plugin output for '"
  const TextMiddle := "':\n\n"
  const TextTail := "\n\nIdentify any suspicious processes, malware behavior, anomalies, or compromise indicators."

  /** The instruction text: plugin name and output embedded verbatim. */
  function RequestText(pluginName: string, pluginOutput: string): (p: string)
    ensures |p| == |TextHead| + |pluginName| + |TextMiddle| + |pluginOutput| + |TextTail|
    ensures p[|TextHead|..|TextHead| + |pluginName|] == pluginName
    ensures p[|TextHead| + |pluginName| + |TextMiddle|..|p| - |TextTail|] == pluginOutput
  {
    Embed(TextHead, pluginName, TextMiddle, pluginOutput, TextTail);
    TextHead + pluginName + TextMiddle + pluginOutput + TextTail
  }

  function One(key: string, v: Json): Json {
    JDict(map[key := v])
  }

  /** Where the request body carries its instruction text. */
  const RequestPath: seq<Step> := [Key("contents"), First, Key("parts"), First, Key("text")]

  /** `{"contents": [{"parts": [{"text": ...}]}]}`. */
  function RequestBody(pluginName: string, pluginOutput: string): (r: Json)
    ensures Navigate(r, RequestPath) == Success(JStr(RequestText(pluginName, pluginOutput)))
  {
    var text := JStr(RequestText(pluginName, pluginOutput));
    RequestPathFindsText(text);
    One("contents", JList([One("parts", JList([One("text", text)]))]))
  }

  lemma RequestPathFindsText(text: Json)
    ensures Navigate(One("contents", JList([One("parts", JList([One("text", text)]))])), RequestPath) == Success(text)
  {
  }

  /** `['candidates'][0]['content']['parts'][0]['text']`. */
  const ReplyPath: seq<Step> := [Key("candidates"), First, Key("content"), Key("parts"), First, Key("text")]

  /** The shape of a successful generateContent reply carrying `text`. */
  function ReplyCarrying(text: string): Json {
    One("candidates", JList([One("content", One("parts", JList([One("text", JStr(text))])))]))
  }

  lemma ReplyPathFindsText(text: string)
    ensures Navigate(ReplyCarrying(text), ReplyPath) == Success(JStr(text))
  {
    var v := ReplyCarrying(text);
    var c := One("content", One("parts", JList([One("text", JStr(text))])));
    var parts := JList([One("text", JStr(text))]);
    assert GetKey(v, "candidates") == Success(JList([c]));
    assert GetFirst(JList([c])) == Success(c);
    assert GetKey(c, "content") == Success(One("parts", parts));
    assert GetKey(One("parts", parts), "parts") == Success(parts);
    assert GetFirst(parts) == Success(One("text", JStr(text)));
    assert GetKey(One("text", JStr(text)), "text") == Success(JStr(text));
    assert ReplyPath[1..][1..][1..][1..][1..][1..] == [];
  }

  /** `raise_for_status()`: 4xx and 5xx replies raise `HTTPError` with this text. */
  function StatusError(status: int, reason: string, url: string): (r: Option<string>)
    ensures r.Some? <==> 400 <= status < 600
  {
    if 400 <= status < 500 then Some(IntToString(status) + " Client Error: " + reason + " for url: " + url)
    else if 500 <= status < 600 then Some(IntToString(status) + " Server Error: " + reason + " for url: " + url)
    else None
  }

  /**
   The message of the exception the request raises, or the value it extracts:
   a failed POST, then an error status, then an undecodable body, then a
   missing step of the reply path, each raising its own message.
   */
  function Exchange(reply: HttpReply, url: string): (r: Result<Json>)
    ensures reply.PostRaised? ==> r == Failure(reply.message)
    ensures reply.Reply? && 400 <= reply.status < 600 ==>
      r == Failure(StatusError(reply.status, reply.reason, url).value)
    ensures reply.Reply? && !(400 <= reply.status < 600) && reply.body.NotJson? ==> r == Failure(reply.body.message)
    ensures r.Success? <==>
      reply.Reply? && !(400 <= reply.status < 600) && reply.body.Parsed? && Navigate(reply.body.value, ReplyPath).Success?
    ensures r.Success? ==> r == Navigate(reply.body.value, ReplyPath)
    ensures reply.Reply? && !(400 <= reply.status < 600) && reply.body.Parsed? ==> r == Navigate(reply.body.value, ReplyPath)
  {
    match reply
    case PostRaised(m) => Failure(m)
    case Reply(status, reason, body) =>
      match StatusError(status, reason, url)
      case Some(m) => Failure(m)
      case None =>
        match body
        case NotJson(m) => Failure(m)
        case Parsed(v) => Navigate(v, ReplyPath)
  }

  predicate HasKey(apiKey: Option<string>) {
    apiKey.Some? && apiKey.value != []
  }

  /**
   processor `analyze_with_gemini(plugin_name, plugin_output)`: with no key
   (unset or empty) the fixed error text; otherwise one POST whose failure of
   any kind becomes the API error prefix followed by its message, and whose
   success is the value found at the reply path, returned as is.
   */
  function AnalyzeWithGemini(pluginName: string, pluginOutput: string, apiKey: Option<string>,
                             post: (string, Json) -> HttpReply): (r: Json)
    ensures !HasKey(apiKey) ==> r == JStr(MissingKeyMessage)
    ensures HasKey(apiKey) ==>
      match Exchange(post(Endpoint(apiKey.value), RequestBody(pluginName, pluginOutput)), Endpoint(apiKey.value))
      case Failure(m) => r == JStr(ApiErrorPrefix + m)
      case Success(v) => r == v
  {
    if !HasKey(apiKey) then JStr(MissingKeyMessage)
    else
      var url := Endpoint(apiKey.value);
      match Exchange(post(url, RequestBody(pluginName, pluginOutput)), url)
      case Failure(m) => JStr(ApiErrorPrefix + m)
      case Success(v) => v
  }

  /** Without a key no request is made: the HTTP collaborator does not matter. */
  lemma NoKeyNoRequest(pluginName: string, pluginOutput: string, apiKey: Option<string>,
                       post1: (string, Json) -> HttpReply, post2: (string, Json) -> HttpReply)
    requires !HasKey(apiKey)
    ensures AnalyzeWithGemini(pluginName, pluginOutput, apiKey, post1)
         == AnalyzeWithGemini(pluginName, pluginOutput, apiKey, post2)
  {
  }

  /** A 2xx reply of the documented shape yields exactly the text it carries. */
  lemma WellFormedReplyGivesText(pluginName: string, pluginOutput: string, apiKey: string,
                                 post: (string, Json) -> HttpReply, status: int, reason: string, text: string)
    requires apiKey != []
    requires 200 <= status < 300
    requires post(Endpoint(apiKey), RequestBody(pluginName, pluginOutput)) == Reply(status, reason, Parsed(ReplyCarrying(text)))
    ensures AnalyzeWithGemini(pluginName, pluginOutput, Some(apiKey), post) == JStr(text)
  {
    ReplyPathFindsText(text);
  }

  /** An error status always ends up as marked error text, whatever the body. */
  lemma ErrorStatusIsMarked(pluginName: string, pluginOutput: string, apiKey: string,
                            post: (string, Json) -> HttpReply)
    requires apiKey != []
    requires post(Endpoint(apiKey), RequestBody(pluginName, pluginOutput)).Reply?
    requires 400 <= post(Endpoint(apiKey), RequestBody(pluginName, pluginOutput)).status < 600
    ensures AnalyzeWithGemini(pluginName, pluginOutput, Some(apiKey), post).JStr?
    ensures var s := AnalyzeWithGemini(pluginName, pluginOutput, Some(apiKey), post).s;
      |ApiErrorPrefix| <= |s| && s[..|ApiErrorPrefix|] == ApiErrorPrefix
  {
  }

  /** What running one plugin gives: the `str(row)` of each visited row, or `str(e)`. */
  datatype PluginRun = Rows(rows: seq<string>) | PluginRaised(message: string)

  /** `results[plugin_name]`. */
  datatype Entry = Entry(volatilityOutput: string, geminiSummary: Json)

  /** Each row's text followed by a newline, in visiting order. */
  function RenderRows(rows: seq<string>): (r: string)
    ensures r == [] <==> rows == []
  {
    if rows == [] then [] else rows[0] + "\n" + RenderRows(rows[1..])
  }

  /** The rendered output splits at newlines back into the rows, plus a final empty piece. */
  lemma {:induction false} RenderRowsSplit(rows: seq<string>)
    requires forall i :: 0 <= i < |rows| ==> '\n' !in rows[i]
    ensures Split(RenderRows(rows), '\n') == rows + [[]]
  {
    if rows != [] {
      RenderRowsSplit(rows[1..]);
      SplitAppend(rows[0], '\n', RenderRows(rows[1..]));
      SplitNoSep(rows[0], '\n');
      assert rows == [rows[0]] + rows[1..];
    }
  }

  function FailedOutput(pluginName: string, message: string): string {
    "Plugin '" + pluginName + "' failed: " + message
  }

  /**
   The dict entry the loop body assigns for the plugin at position `i`: a
   plugin that raises gets the failure text and the fixed summary; one that
   runs gets its rendered rows and their annotation.
   */
  function EntryFor(i: nat, pluginName: string, engine: (nat, string) -> PluginRun,
                    apiKey: Option<string>, post: (string, Json) -> HttpReply): (e: Entry)
    ensures engine(i, pluginName).PluginRaised? ==>
      e == Entry(FailedOutput(pluginName, engine(i, pluginName).message), JStr(PluginFailedSummary))
    ensures engine(i, pluginName).Rows? ==>
      e.volatilityOutput == RenderRows(engine(i, pluginName).rows)
      && e.geminiSummary == AnalyzeWithGemini(pluginName, e.volatilityOutput, apiKey, post)
  {
    match engine(i, pluginName)
    case PluginRaised(m) => Entry(FailedOutput(pluginName, m), JStr(PluginFailedSummary))
    case Rows(rows) =>
      var output := RenderRows(rows);
      Entry(output, AnalyzeWithGemini(pluginName, output, apiKey, post))
  }

  /** Position of the last occurrence of `x`. */
  function LastIndex(s: seq<string>, x: string): (r: nat)
    requires x in s
    ensures r < |s| && s[r] == x
    ensures forall j :: r < j < |s| ==> s[j] != x
  {
    if s[|s| - 1] == x then |s| - 1
    else
      assert x in s[..|s| - 1] by {
        var k :| 0 <= k < |s| && s[k] == x;
        assert s[..|s| - 1][k] == x;
      }
      LastIndex(s[..|s| - 1], x)
  }

  /** Names in order of first occurrence, each once: the key order of a Python dict filled in that order. */
  function Dedup(s: seq<string>): seq<string> {
    if s == [] then []
    else
      var p := s[..|s| - 1];
      var x := s[|s| - 1];
      if x in p then Dedup(p) else Dedup(p) + [x]
  }

  /** The deduplicated order holds each name of the list exactly once. */
  lemma {:induction false} DedupSpec(s: seq<string>)
    ensures forall x :: x in Dedup(s) <==> x in s
    ensures forall a, b :: 0 <= a < b < |Dedup(s)| ==> Dedup(s)[a] != Dedup(s)[b]
  {
    if s != [] {
      var p := s[..|s| - 1];
      DedupSpec(p);
      assert s == p + [s[|s| - 1]];
    }
  }

  /** The position of the first occurrence of a name. */
  function FirstIndex(s: seq<string>, x: string): (r: nat)
    requires x in s
    ensures r < |s| && s[r] == x
    ensures forall j :: 0 <= j < r ==> s[j] != x
  {
    if s[0] == x then 0 else FirstIndex(s[1..], x) + 1
  }

  /** `d` lists names of `s` in the order of their first occurrence in `s`. */
  predicate FirstOccurrenceOrder(s: seq<string>, d: seq<string>) {
    && (forall y :: y in d ==> y in s)
    && (forall a, b :: 0 <= a < b < |d| ==> FirstIndex(s, d[a]) < FirstIndex(s, d[b]))
  }

  /**
   The deduplicated order is the order of first occurrence: of two names in
   it, the earlier one occurs first in the list.
   */
  lemma {:induction false} DedupFirstOccurrence(s: seq<string>)
    ensures forall x :: x in Dedup(s) ==> x in s
    ensures forall a, b :: 0 <= a < b < |Dedup(s)| ==> FirstIndex(s, Dedup(s)[a]) < FirstIndex(s, Dedup(s)[b])
  {
    if s != [] {
      var p := s[..|s| - 1];
      var x := s[|s| - 1];
      DedupFirstOccurrence(p);
      assert s == p + [x];
      FirstOccurrenceExtend(p, x, Dedup(p));
    }
  }

  /**
   Appending a name keeps a first-occurrence order of the prefix, and a name
   not seen before may be added at its end.
   */
  lemma FirstOccurrenceExtend(p: seq<string>, x: string, d: seq<string>)
    requires FirstOccurrenceOrder(p, d)
    ensures FirstOccurrenceOrder(p + [x], d)
    ensures x !in p ==> FirstOccurrenceOrder(p + [x], d + [x])
  {
    var s := p + [x];
    forall y | y in d ensures FirstIndex(s, y) == FirstIndex(p, y) {
      FirstIndexPrefix(p, x, y);
    }
    if x !in p {
      var e := d + [x];
      forall a, b | 0 <= a < b < |e| ensures FirstIndex(s, e[a]) < FirstIndex(s, e[b]) {
        assert e[a] == d[a];
        if b < |d| {
          assert e[b] == d[b];
        }
      }
    }
  }

  /** Appending a name does not move the first occurrence of a name already present. */
  lemma {:induction false} FirstIndexPrefix(p: seq<string>, x: string, y: string)
    requires y in p
    ensures FirstIndex(p + [x], y) == FirstIndex(p, y)
  {
    if p[0] != y {
      assert (p + [x])[1..] == p[1..] + [x];
      FirstIndexPrefix(p[1..], x, y);
    }
  }

  /**
   `run_multiple_plugins`: the result has exactly one key per distinct name
   in the list, in order of first appearance; each key holds the entry of its
   last occurrence, computed from that call alone, so a failing plugin
   neither stops the loop nor touches another name's entry.
   */
  method RunMultiplePlugins(names: seq<string>, engine: (nat, string) -> PluginRun,
                            apiKey: Option<string>, post: (string, Json) -> HttpReply)
    returns (results: map<string, Entry>, order: seq<string>)
    ensures results.Keys == set j | 0 <= j < |names| :: names[j]
    ensures forall j :: 0 <= j < |names| ==>
      results[names[j]] == EntryFor(LastIndex(names, names[j]), names[j], engine, apiKey, post)
    ensures order == Dedup(names)
  {
    results, order := Collect(names, (k: nat, name: string) => EntryFor(k, name, engine, apiKey, post));
  }

  /**
   The loop of `run_multiple_plugins`, for any way `entry(i, name)` of
   computing the value the `i`-th iteration assigns to `results[name]`.
   */
  method Collect(names: seq<string>, entry: (nat, string) -> Entry)
    returns (results: map<string, Entry>, order: seq<string>)
    ensures results.Keys == set j | 0 <= j < |names| :: names[j]
    ensures forall j :: 0 <= j < |names| ==> results[names[j]] == entry(LastIndex(names, names[j]), names[j])
    ensures order == Dedup(names)
  {
    results := map[];
    order := [];
    for i := 0 to |names|
      invariant results.Keys == set j | 0 <= j < i :: names[j]
      invariant forall j :: 0 <= j < i ==> results[names[j]] == entry(LastIndex(names[..i], names[j]), names[j])
      invariant order == Dedup(names[..i])
    {
      var name := names[i];
      OrderStep(names, i, results.Keys, order);
      order := if name in results then order else order + [name];
      var updated := results[name := entry(i, name)];
      EntriesStep(names, i, results, updated, entry);
      results := updated;
    }
    assert names[..|names|] == names;
  }

  /** One iteration extends the key set and the first-occurrence order as a dict assignment does. */
  lemma OrderStep(names: seq<string>, i: nat, keys: set<string>, order: seq<string>)
    requires i < |names|
    requires keys == set j | 0 <= j < i :: names[j]
    requires order == Dedup(names[..i])
    ensures (if names[i] in keys then order else order + [names[i]]) == Dedup(names[..i + 1])
    ensures (set j | 0 <= j < i + 1 :: names[j]) == keys + {names[i]}
  {
    assert names[..i + 1][..i] == names[..i];
    if names[i] in (set j | 0 <= j < i :: names[j]) {
      var j :| 0 <= j < i && names[j] == names[i];
      assert names[..i][j] == names[i];
    }
  }

  /**
   The loop body keeps every entry equal to the entry of its last occurrence
   so far, whatever `f` computes an entry from.
   */
  lemma EntriesStep(names: seq<string>, i: nat, results: map<string, Entry>,
                    updated: map<string, Entry>, f: (nat, string) -> Entry)
    requires i < |names|
    requires updated == results[names[i] := f(i, names[i])]
    requires results.Keys == set j | 0 <= j < i :: names[j]
    requires forall j :: 0 <= j < i ==> results[names[j]] == f(LastIndex(names[..i], names[j]), names[j])
    ensures forall j :: 0 <= j < i + 1 ==> updated[names[j]] == f(LastIndex(names[..i + 1], names[j]), names[j])
  {
    assert names[..i + 1] == names[..i] + [names[i]];
    forall j | 0 <= j < i + 1
      ensures updated[names[j]] == f(LastIndex(names[..i + 1], names[j]), names[j])
    {
      if names[j] == names[i] {
        assert LastIndex(names[..i + 1], names[j]) == i;
      } else {
        assert names[..i][j] == names[j];
        LastIndexExtend(names[..i], names[i], names[j]);
      }
    }
  }

  lemma LastIndexExtend(s: seq<string>, y: string, x: string)
    requires x in s && x != y
    ensures LastIndex(s + [y], x) == LastIndex(s, x)
  {
    assert (s + [y])[..|s|] == s;
  }
}

=== FILE: pyjson.dfy ===
/**
 Decoded JSON values as Python sees them after `response.json()`, and the
 subscripts `v["key"]` and `v[0]` with the exception message (`str(e)`) each
 failing subscript raises in CPython 3.11. JSON numbers are modelled as
 integers only.
 */
module PyJson {
  import opened Wrappers

  datatype Json =
    | JNull
    | JBool(b: bool)
    | JInt(i: int)
    | JStr(s: string)
    | JList(items: seq<Json>)
    | JDict(fields: map<string, Json>)

  /** Name of the Python type a value decodes to, as it appears in `TypeError` messages. */
  function TypeName(v: Json): string {
    match v
    case JNull => "NoneType"
    case JBool(_) => "bool"
    case JInt(_) => "int"
    case JStr(_) => "str"
    case JList(_) => "list"
    case JDict(_) => "dict"
  }

  /**
   `v[key]` for a string key: only a dict holding the key succeeds. A missing
   key raises `KeyError`, whose text is the quoted key (the keys used here
   contain no quote characters).
   */
  function GetKey(v: Json, key: string): (r: Result<Json>)
    ensures r.Success? <==> v.JDict? && key in v.fields
    ensures r.Success? ==> r.value == v.fields[key]
    ensures v.JDict? && key !in v.fields ==> r == Failure("'" + key + "'")
  {
    match v
    case JDict(m) => if key in m then Success(m[key]) else Failure("'" + key + "'")
    case JList(_) => Failure("list indices must be integers or slices, not str")
    case JStr(_) => Failure("string indices must be integers, not 'str'")
    case _ => Failure("'" + TypeName(v) + "' object is not subscriptable")
  }

  /**
   `v[0]`: the first element of a non-empty list, or the first character of
   a non-empty string. A dict raises `KeyError(0)`.
   */
  function GetFirst(v: Json): (r: Result<Json>)
    ensures v.JList? && v.items != [] ==> r == Success(v.items[0])
    ensures v.JStr? && v.s != [] ==> r == Success(JStr([v.s[0]]))
    ensures r.Success? <==> (v.JList? && v.items != []) || (v.JStr? && v.s != [])
  {
    match v
    case JList(xs) => if xs != [] then Success(xs[0]) else Failure("list index out of range")
    case JStr(s) => if s != [] then Success(JStr([s[0]])) else Failure("string index out of range")
    case JDict(_) => Failure("0")
    case _ => Failure("'" + TypeName(v) + "' object is not subscriptable")
  }

  datatype Step = Key(key: string) | First

  /** One subscript. */
  function Subscript(v: Json, step: Step): Result<Json> {
    match step
    case Key(k) => GetKey(v, k)
    case First => GetFirst(v)
  }

  /**
   A chain of subscripts, stopping at the first that raises: an empty chain
   gives the value itself, and a single step is that one subscript.
   */
  function Navigate(v: Json, path: seq<Step>): (r: Result<Json>)
    ensures path == [] ==> r == Success(v)
    ensures |path| == 1 ==> r == Subscript(v, path[0])
    decreases |path|
  {
    if path == [] then Success(v)
    else
      match Subscript(v, path[0])
      case Failure(m) => Failure(m)
      case Success(w) => Navigate(w, path[1..])
  }

  /**
   Following `p + q` is following `p`, then `q` from where `p` led; a failure
   along `p` is the failure of the whole chain.
   */
  lemma {:induction false} NavigateAppend(v: Json, p: seq<Step>, q: seq<Step>)
    ensures Navigate(v, p + q) ==
      match Navigate(v, p)
      case Failure(m) => Failure(m)
      case Success(w) => Navigate(w, q)
    decreases |p|
  {
    if p == [] {
      assert p + q == q;
    } else {
      assert (p + q)[0] == p[0];
      assert (p + q)[1..] == p[1..] + q;
      match Subscript(v, p[0])
      case Failure(m) =>
      case Success(w) => NavigateAppend(w, p[1..], q);
    }
  }
}

=== FILE: store.dfy ===
/**
 The `analysis` table (app/main.py lines 37-48) as a sequence of rows in
 insertion (rowid) order, with the two writers `save_to_db` and `update_db`
 and the three read paths of the HTTP API. Nothing makes `task_id` unique,
 and `update_db` has no guard on the current status: the last write wins.
 */
module TaskStore {
  import opened Wrappers
  import opened Text

  datatype Status = Pending | Started | Completed | Failed {
    predicate IsTerminal() {
      this == Completed || this == Failed
    }
  }

  /** One row; `createdAt` is the `CURRENT_TIMESTAMP` default, in seconds. */
  datatype Row = Row(
    taskId: string,
    plugin: string,
    image: string,
    resultPath: Option<string>,
    status: Status,
    geminiAnalysis: Option<string>,
    createdAt: int)

  type Table = seq<Row>

  /** The three columns one `update_db` call sets. */
  datatype Write = Write(status: Status, resultPath: Option<string>, geminiAnalysis: Option<string>)

  /** Index of the first row with the given task id, if any. */
  function FirstMatch(t: Table, taskId: string): (r: Option<nat>)
    ensures r.None? <==> forall i :: 0 <= i < |t| ==> t[i].taskId != taskId
    ensures r.Some? ==> r.value < |t| && t[r.value].taskId == taskId
    ensures r.Some? ==> forall i :: 0 <= i < r.value ==> t[i].taskId != taskId
  {
    if t == [] then None
    else if t[0].taskId == taskId then Some(0)
    else match FirstMatch(t[1..], taskId)
      case None => None
      case Some(i) => Some(i + 1)
  }

  /**
   `save_to_db`: appends a `PENDING` row with no result path and no
   annotation after the existing rows, which stay as they were.
   */
  function SaveToDb(t: Table, taskId: string, plugin: string, image: string, now: int): (r: Table)
    ensures |r| == |t| + 1 && r[..|t|] == t
    ensures r[|t|].taskId == taskId && r[|t|].status == Pending
    ensures r[|t|].resultPath == None && r[|t|].geminiAnalysis == None
    ensures r[|t|].plugin == plugin && r[|t|].image == image && r[|t|].createdAt == now
  {
    t + [Row(taskId, plugin, image, None, Pending, None, now)]
  }

  /**
   After `save_to_db`, rows of other task ids are found as before; a task id
   that had no row is now found at the new row, reading `PENDING`.
   */
  lemma SaveRegistersTask(t: Table, taskId: string, plugin: string, image: string, now: int)
    ensures var r := SaveToDb(t, taskId, plugin, image, now);
      && (forall id :: id != taskId ==> FirstMatch(r, id) == FirstMatch(t, id))
      && (FirstMatch(t, taskId).None? ==> TaskStatus(r, taskId) == StatusOf(taskId, Pending, None, None))
  {
    var row := SaveToDb(t, taskId, plugin, image, now)[|t|];
    assert SaveToDb(t, taskId, plugin, image, now) == t + [row];
    forall id {
      FirstMatchAppend(t, row, id);
    }
  }

  /** Appending a row changes only the lookups of an id no earlier row carries. */
  lemma FirstMatchAppend(t: Table, row: Row, id: string)
    ensures FirstMatch(t + [row], id) ==
              if FirstMatch(t, id).Some? then FirstMatch(t, id)
              else if row.taskId == id then Some(|t|) else None
  {
    var r := t + [row];
    assert forall i :: 0 <= i < |t| ==> r[i] == t[i];
    match FirstMatch(t, id)
    case Some(k) =>
      FirstMatchAt(r, id, k);
    case None =>
      if row.taskId == id {
        FirstMatchAt(r, id, |t|);
      } else {
        assert forall i :: 0 <= i < |r| ==> r[i].taskId != id;
      }
  }

  /** The first row carrying the id is the one the lookups use. */
  lemma FirstMatchAt(t: Table, taskId: string, p: nat)
    requires p < |t| && t[p].taskId == taskId
    requires forall j :: 0 <= j < p ==> t[j].taskId != taskId
    ensures FirstMatch(t, taskId) == Some(p)
    ensures TaskStatus(t, taskId) == StatusOf(taskId, t[p].status, t[p].resultPath, t[p].geminiAnalysis)
  {
  }

  /** Tables with the same task ids row by row answer every lookup alike. */
  lemma FirstMatchSameIds(t1: Table, t2: Table, id: string)
    requires |t1| == |t2|
    requires forall i :: 0 <= i < |t1| ==> t1[i].taskId == t2[i].taskId
    ensures FirstMatch(t1, id) == FirstMatch(t2, id)
  {
    match FirstMatch(t1, id)
    case None =>
      assert forall i :: 0 <= i < |t2| ==> t2[i].taskId != id;
    case Some(k) =>
      FirstMatchAt(t2, id, k);
  }

  function Overwrite(row: Row, w: Write): Row {
    row.(status := w.status, resultPath := w.resultPath, geminiAnalysis := w.geminiAnalysis)
  }

  /**
   `update_db`: every row with the task id gets the three columns of the
   write; every other row, and the identity columns of matching rows, are
   left as they were.
   */
  function UpdateDb(t: Table, taskId: string, w: Write): (r: Table)
    ensures |r| == |t|
    ensures forall i :: 0 <= i < |t| ==> r[i] == if t[i].taskId == taskId then Overwrite(t[i], w) else t[i]
  {
    if t == [] then []
    else [if t[0].taskId == taskId then Overwrite(t[0], w) else t[0]] + UpdateDb(t[1..], taskId, w)
  }

  /** An update for a task id no row carries changes nothing (and raises nothing). */
  lemma UpdateUnknownIsNoop(t: Table, taskId: string, w: Write)
    requires FirstMatch(t, taskId).None?
    ensures UpdateDb(t, taskId, w) == t
  {
  }

  /** Applying the same update twice is the same as applying it once. */
  lemma UpdateIdempotent(t: Table, taskId: string, w: Write)
    ensures UpdateDb(UpdateDb(t, taskId, w), taskId, w) == UpdateDb(t, taskId, w)
  {
  }

  /** Of two updates to one task id, only the later one is visible. */
  lemma UpdateLastWriterWins(t: Table, taskId: string, w1: Write, w2: Write)
    ensures UpdateDb(UpdateDb(t, taskId, w1), taskId, w2) == UpdateDb(t, taskId, w2)
  {
  }

  /** Updates of different task ids touch disjoint rows, so their order does not matter. */
  lemma UpdatesCommute(t: Table, id1: string, w1: Write, id2: string, w2: Write)
    requires id1 != id2
    ensures UpdateDb(UpdateDb(t, id1, w1), id2, w2) == UpdateDb(UpdateDb(t, id2, w2), id1, w1)
  {
  }

  /** The worker's writes for one task, applied in order. */
  function ApplyWrites(t: Table, taskId: string, ws: seq<Write>): (r: Table)
    decreases ws
    ensures |r| == |t|
    ensures forall i :: 0 <= i < |t| ==> r[i].taskId == t[i].taskId
    ensures forall i :: 0 <= i < |t| && t[i].taskId != taskId ==> r[i] == t[i]
  {
    if ws == [] then t else ApplyWrites(UpdateDb(t, taskId, ws[0]), taskId, ws[1..])
  }

  lemma ApplyTwo(t: Table, taskId: string, a: Write, b: Write)
    ensures ApplyWrites(t, taskId, [a, b]) == UpdateDb(UpdateDb(t, taskId, a), taskId, b)
  {
    var u := UpdateDb(t, taskId, a);
    assert [a, b][1..] == [b];
    assert ApplyWrites(u, taskId, [b]) == ApplyWrites(UpdateDb(u, taskId, b), taskId, []);
  }

  /**
   After a non-empty series of writes, every row of the task holds exactly
   the columns of the last write, whatever it held before.
   */
  lemma {:induction false} ApplyWritesLast(t: Table, taskId: string, ws: seq<Write>, i: nat)
    requires ws != [] && i < |t| && t[i].taskId == taskId
    ensures ApplyWrites(t, taskId, ws)[i] == Overwrite(t[i], ws[|ws| - 1])
    decreases ws
  {
    var t1 := UpdateDb(t, taskId, ws[0]);
    if |ws| > 1 {
      ApplyWritesLast(t1, taskId, ws[1..], i);
      assert ws[1..][|ws[1..]| - 1] == ws[|ws| - 1];
    }
  }

  lemma {:induction false} ApplyWritesKeepsLookup(t: Table, taskId: string, ws: seq<Write>, id: string)
    ensures FirstMatch(ApplyWrites(t, taskId, ws), id) == FirstMatch(t, id)
  {
    FirstMatchSameIds(ApplyWrites(t, taskId, ws), t, id);
  }

  /** The reply of `GET /status/{task_id}`. */
  datatype StatusReply =
    | TaskNotFound
    | StatusOf(taskId: string, status: Status, resultPath: Option<string>, geminiAnalysis: Option<string>)

  /**
   `task_status`: not found exactly when no row carries the id; otherwise
   the columns of the first such row.
   */
  function TaskStatus(t: Table, taskId: string): (r: StatusReply)
    ensures r.TaskNotFound? <==> forall i :: 0 <= i < |t| ==> t[i].taskId != taskId
    ensures r.StatusOf? ==> r.taskId == taskId
    ensures r.StatusOf? ==> (exists i :: 0 <= i < |t| && t[i].taskId == taskId
                              && r == StatusOf(taskId, t[i].status, t[i].resultPath, t[i].geminiAnalysis))
  {
    match FirstMatch(t, taskId)
    case None => TaskNotFound
    case Some(i) => StatusOf(taskId, t[i].status, t[i].resultPath, t[i].geminiAnalysis)
  }

  /**
   There is no terminal-state guard: once a task has a row, a status query
   after an update reports exactly what the update wrote, even if the row was
   `COMPLETED` or `FAILED` before.
   */
  lemma StatusAfterUpdate(t: Table, taskId: string, w: Write)
    requires exists i :: 0 <= i < |t| && t[i].taskId == taskId
    ensures TaskStatus(UpdateDb(t, taskId, w), taskId)
      == StatusOf(taskId, w.status, w.resultPath, w.geminiAnalysis)
  {
    var r := UpdateDb(t, taskId, w);
    var i := FirstMatch(t, taskId).value;
    FirstMatchSameIds(r, t, taskId);
    assert r[i] == Overwrite(t[i], w);
  }

  /**
   After a non-empty series of writes to a task that has a row, a status
   query reports the columns of the last write.
   */
  lemma StatusAfterWrites(t: Table, taskId: string, ws: seq<Write>)
    requires exists i :: 0 <= i < |t| && t[i].taskId == taskId
    requires ws != []
    ensures var w := ws[|ws| - 1];
      TaskStatus(ApplyWrites(t, taskId, ws), taskId) == StatusOf(taskId, w.status, w.resultPath, w.geminiAnalysis)
  {
    var i := FirstMatch(t, taskId).value;
    ApplyWritesKeepsLookup(t, taskId, ws, taskId);
    ApplyWritesLast(t, taskId, ws, i);
  }

  /** Status queries of other tasks are unaffected by an update. */
  lemma StatusOtherTask(t: Table, taskId: string, w: Write, other: string)
    requires other != taskId
    ensures TaskStatus(UpdateDb(t, taskId, w), other) == TaskStatus(t, other)
  {
    var r := UpdateDb(t, taskId, w);
    FirstMatchSameIds(r, t, other);
    match FirstMatch(t, other)
    case None =>
    case Some(i) =>
      assert r[i] == t[i];
  }

  /** The reply of `GET /download/{task_id}`: the file to serve and its download name. */
  datatype DownloadReply = ResultNotFound | Serve(path: string, filename: string)

  /**
   `download_result`: served only when the first row of the task has a
   non-empty result path naming an existing file; the download name is the
   path's basename. `fileExists` stands for `os.path.exists`.
   */
  function DownloadResult(t: Table, taskId: string, fileExists: string -> bool): (r: DownloadReply)
    ensures r.Serve? <==> (FirstMatch(t, taskId).Some?
                           && t[FirstMatch(t, taskId).value].resultPath.Some?
                           && t[FirstMatch(t, taskId).value].resultPath.value != []
                           && fileExists(t[FirstMatch(t, taskId).value].resultPath.value))
    ensures r.Serve? ==> exists i :: 0 <= i < |t| && t[i].taskId == taskId && t[i].resultPath == Some(r.path)
    ensures r.Serve? ==> t[FirstMatch(t, taskId).value].resultPath == Some(r.path) && fileExists(r.path)
    ensures r.Serve? ==> r.filename == Basename(r.path) && '/' !in r.filename
  {
    match FirstMatch(t, taskId)
    case None => ResultNotFound
    case Some(i) =>
      match t[i].resultPath
      case None => ResultNotFound
      case Some(p) => if p == [] || !fileExists(p) then ResultNotFound else Serve(p, Basename(p))
  }

  /** A result path is only ever stored together with `COMPLETED`. */
  predicate ResultOnlyWhenCompleted(t: Table) {
    forall i :: 0 <= i < |t| && t[i].resultPath.Some? ==> t[i].status == Completed
  }

  predicate WriteKeepsResultRule(w: Write) {
    w.resultPath.Some? ==> w.status == Completed
  }

  lemma SaveKeepsResultRule(t: Table, taskId: string, plugin: string, image: string, now: int)
    requires ResultOnlyWhenCompleted(t)
    ensures ResultOnlyWhenCompleted(SaveToDb(t, taskId, plugin, image, now))
  {
  }

  lemma {:induction false} ApplyKeepsResultRule(t: Table, taskId: string, ws: seq<Write>)
    requires ResultOnlyWhenCompleted(t)
    requires forall k :: 0 <= k < |ws| ==> WriteKeepsResultRule(ws[k])
    ensures ResultOnlyWhenCompleted(ApplyWrites(t, taskId, ws))
    decreases ws
  {
    if ws != [] {
      ApplyKeepsResultRule(UpdateDb(t, taskId, ws[0]), taskId, ws[1..]);
    }
  }

  /** Under that rule, a served download always belongs to a `COMPLETED` row. */
  lemma DownloadOnlyCompleted(t: Table, taskId: string, fileExists: string -> bool)
    requires ResultOnlyWhenCompleted(t)
    ensures DownloadResult(t, taskId, fileExists).Serve? ==>
      TaskStatus(t, taskId).StatusOf? && TaskStatus(t, taskId).status == Completed
  {
  }

  /** Newest first: `created_at` never increases along the sequence. */
  predicate NewestFirst(s: seq<Row>) {
    forall i, j :: 0 <= i < j < |s| ==> s[i].createdAt >= s[j].createdAt
  }

  /**
   Inserting a row into a newest-first sequence keeps it newest first, adds
   exactly that row, and puts it in front of every row that is not newer.
   */
  function InsertByAge(x: Row, s: seq<Row>): (r: seq<Row>)
    requires NewestFirst(s)
    ensures NewestFirst(r)
    ensures multiset(r) == multiset(s) + multiset{x}
    ensures |r| == |s| + 1
    ensures r[0] == x || (s != [] && r[0] == s[0])
  {
    if s == [] then [x]
    else if x.createdAt >= s[0].createdAt then
      ConsNewest(x, s);
      [x] + s
    else
      var rest := InsertByAge(x, s[1..]);
      InsertBehind(x, s, rest);
      [s[0]] + rest
  }

  /** The head of `s` stays in front when `x` goes somewhere into its tail. */
  lemma InsertBehind(x: Row, s: seq<Row>, rest: seq<Row>)
    requires NewestFirst(s) && s != [] && x.createdAt < s[0].createdAt
    requires NewestFirst(rest) && rest != []
    requires multiset(rest) == multiset(s[1..]) + multiset{x}
    requires rest[0] == x || (|s| > 1 && rest[0] == s[1])
    ensures NewestFirst([s[0]] + rest)
    ensures multiset([s[0]] + rest) == multiset(s) + multiset{x}
  {
    assert s == [s[0]] + s[1..];
    ConsNewest(s[0], rest);
  }

  /** A row no older than the head of a newest-first sequence can go in front of it. */
  lemma ConsNewest(h: Row, s: seq<Row>)
    requires NewestFirst(s)
    requires s != [] ==> h.createdAt >= s[0].createdAt
    ensures NewestFirst([h] + s)
  {
    var r := [h] + s;
    forall i, j | 0 <= i < j < |r| ensures r[i].createdAt >= r[j].createdAt {
      if i == 0 && j > 1 {
        assert r[j] == s[j - 1];
        assert s[0].createdAt >= s[j - 1].createdAt;
      }
    }
  }

  function SortNewest(t: seq<Row>): (r: seq<Row>)
    ensures NewestFirst(r)
    ensures multiset(r) == multiset(t)
    ensures |r| == |t|
  {
    if t == [] then []
    else
      assert t == [t[0]] + t[1..];
      InsertByAge(t[0], SortNewest(t[1..]))
  }

  function Min(a: nat, b: nat): nat {
    if a <= b then a else b
  }

  /**
   `ORDER BY created_at DESC LIMIT limit`: as many rows as the limit allows,
   newest first, drawn from the table, and no row left out is newer than a
   row selected. The order among rows of equal age is not constrained.
   */
  function SelectRecent(t: Table, limit: nat): (r: seq<Row>)
    ensures RecentSelection(t, limit, r)
  {
    var sorted := SortNewest(t);
    OlderTail(sorted, Min(limit, |t|));
    sorted[..Min(limit, |t|)]
  }

  /**
   Cutting a newest-first sequence at `k` keeps a newest-first prefix drawn
   from it, and nothing cut off is newer than anything kept.
   */
  lemma OlderTail(sorted: seq<Row>, k: nat)
    requires NewestFirst(sorted) && k <= |sorted|
    ensures NewestFirst(sorted[..k])
    ensures multiset(sorted[..k]) <= multiset(sorted)
    ensures multiset(sorted) - multiset(sorted[..k]) == multiset(sorted[k..])
    ensures forall x, i :: x in multiset(sorted) - multiset(sorted[..k]) && 0 <= i < k ==> x.createdAt <= sorted[..k][i].createdAt
  {
    assert sorted == sorted[..k] + sorted[k..];
    forall x, i | x in multiset(sorted[k..]) && 0 <= i < k ensures x.createdAt <= sorted[..k][i].createdAt {
      var j :| 0 <= j < |sorted[k..]| && sorted[k..][j] == x;
      assert sorted[k + j] == x;
    }
  }

  /** One entry of `GET /results/all`. */
  datatype Summary = Summary(
    taskId: string,
    plugin: string,
    image: string,
    status: Status,
    resultPath: Option<string>,
    geminiAnalysis: Option<string>)

  function Summarize(row: Row): Summary {
    Summary(row.taskId, row.plugin, row.image, row.status, row.resultPath, row.geminiAnalysis)
  }

  const ListLimit: nat := 50

  /**
   What `ORDER BY created_at DESC LIMIT limit` may return: as many rows as
   the limit allows, newest first, drawn from the table without repeating
   any row more often than it occurs, and none left out newer than one kept.
   */
  predicate RecentSelection(t: Table, limit: nat, rows: seq<Row>) {
    && |rows| == Min(limit, |t|)
    && NewestFirst(rows)
    && multiset(rows) <= multiset(t)
    && (forall x, i :: x in multiset(t) - multiset(rows) && 0 <= i < |rows| ==> x.createdAt <= rows[i].createdAt)
  }

  /**
   `all_results`: the summaries of a newest-first selection of at most 50
   rows of the table, all of them when the table is that small.
   */
  function AllResults(t: Table): (r: seq<Summary>)
    ensures |r| <= ListLimit
    ensures |r| == Min(ListLimit, |t|)
    ensures forall i :: 0 <= i < |r| ==> exists j :: 0 <= j < |t| && r[i] == Summarize(t[j])
    ensures exists rows :: RecentSelection(t, ListLimit, rows) && r == SummarizeAll(rows)
  {
    var rows := SelectRecent(t, ListLimit);
    var r := SummarizeAll(rows);
    forall i | 0 <= i < |r| ensures exists j :: 0 <= j < |t| && r[i] == Summarize(t[j]) {
      assert rows[i] in multiset(t);
      var j :| 0 <= j < |t| && t[j] == rows[i];
    }
    r
  }

  function SummarizeAll(rows: seq<Row>): (r: seq<Summary>)
    ensures |r| == |rows|
    ensures forall i :: 0 <= i < |rows| ==> r[i] == Summarize(rows[i])
  {
    if rows == [] then [] else [Summarize(rows[0])] + SummarizeAll(rows[1..])
  }
}

=== FILE: submission.dfy ===
/**
 The `POST /analyze/` handler (app/main.py lines 130-158): parse the plugin
 list, then for each plugin enqueue one work item and insert one `PENDING`
 row, and reply with one `{plugin, task_id}` entry per plugin. The broker's
 task ids and the database clock are collaborators: `mint(k)` is the id the
 `k`-th `delay` call returns and `clock(k)` the `CURRENT_TIMESTAMP` of the
 `k`-th insert.
 */
module Submission {
  import opened Wrappers
  import opened Text
  import opened TaskStore
  import opened PluginList
  import Worker
  import GeminiAnalyzer

  datatype TaskRef = TaskRef(plugin: string, taskId: string)

  /** The arguments `analyze_memory.delay(image_path, plugin)` queues, with the id it was given. */
  datatype WorkItem = WorkItem(taskId: string, imagePath: string, plugin: string)

  datatype Reply = Reply(image: string, tasks: seq<TaskRef>, status: string)

  datatype Submitted = Submitted(reply: Reply, table: Table, queue: seq<WorkItem>)

  const ProcessingStarted := "Processing started"

  datatype Fanned = Fanned(tasks: seq<TaskRef>, table: Table, queue: seq<WorkItem>)

  /**
   The loop over `names[i..]`: plugin `names[i + k]` gets id `mint(i + k)`, one
   queued item, one appended `PENDING` row and one reply entry, all in list
   order; rows already in the table stay as they are.
   */
  function FanOut(names: seq<string>, i: nat, imagePath: string, filename: string, t: Table,
                  mint: nat -> string, clock: nat -> int): (r: Fanned)
    requires i <= |names|
    ensures |r.tasks| == |names| - i && |r.queue| == |names| - i
    ensures |r.table| == |t| + |names| - i && r.table[..|t|] == t
    ensures forall k :: 0 <= k < |names| - i ==> r.tasks[k] == TaskRef(names[i + k], mint(i + k))
    ensures forall k :: 0 <= k < |names| - i ==> r.queue[k] == WorkItem(mint(i + k), imagePath, names[i + k])
    ensures forall j :: |t| <= j < |r.table| ==>
      r.table[j] == Row(mint(i + j - |t|), names[i + j - |t|], filename, None, Pending, None, clock(i + j - |t|))
    decreases |names| - i
  {
    if i == |names| then Fanned([], t, [])
    else
      var id := mint(i);
      var t' := SaveToDb(t, id, names[i], filename, clock(i));
      var rest := FanOut(names, i + 1, imagePath, filename, t', mint, clock);
      assert rest.table[..|t|] == t'[..|t|] == t by {
        assert rest.table[..|t|] == rest.table[..|t'|][..|t|];
      }
      assert rest.table[|t|] == t'[|t|] by {
        assert rest.table[|t|] == rest.table[..|t'|][|t|];
      }
      Fanned([TaskRef(names[i], id)] + rest.tasks, rest.table, [WorkItem(id, imagePath, names[i])] + rest.queue)
  }

  /**
   `analyze`: one reply entry, one queued item and one new `PENDING` row per
   parsed plugin, in the order the plugins were given and with duplicates
   kept; a list that parses to nothing is accepted and creates nothing.
   */
  function Analyze(form: string, filename: string, uploadDir: string, t: Table,
                   mint: nat -> string, clock: nat -> int): (r: Submitted)
    ensures var names := ParsePlugins(form);
      && r.reply.image == filename
      && |r.reply.tasks| == |names| && |r.queue| == |names|
      && |r.table| == |t| + |names| && r.table[..|t|] == t
      && (forall k :: 0 <= k < |names| ==> r.reply.tasks[k] == TaskRef(names[k], mint(k)))
      && (forall k :: 0 <= k < |names| ==> r.queue[k] == WorkItem(mint(k), PathJoin(uploadDir, filename), names[k]))
      && (forall j :: |t| <= j < |r.table| ==>
            r.table[j] == Row(mint(j - |t|), names[j - |t|], filename, None, Pending, None, clock(j - |t|)))
    ensures ParsePlugins(form) == [] ==> r.reply.tasks == [] && r.table == t && r.queue == []
    ensures r.reply.status == ProcessingStarted
  {
    var names := ParsePlugins(form);
    var f := FanOut(names, 0, PathJoin(uploadDir, filename), filename, t, mint, clock);
    assert f.table[..|t|] == t;
    Submitted(Reply(filename, f.tasks, ProcessingStarted), f.table, f.queue)
  }

  predicate FreshIds(t: Table, mint: nat -> string, n: nat) {
    && (forall a, b :: 0 <= a < b < n ==> mint(a) != mint(b))
    && (forall a, i :: 0 <= a < n && 0 <= i < |t| ==> t[i].taskId != mint(a))
  }

  /**
   When the broker hands out distinct ids not already in the table, every
   task of the reply can be queried right away and reads `PENDING` with no
   result path and no annotation.
   */
  lemma SubmittedTasksArePending(form: string, filename: string, uploadDir: string, t: Table,
                                 mint: nat -> string, clock: nat -> int, k: nat)
    requires k < |ParsePlugins(form)|
    requires FreshIds(t, mint, |ParsePlugins(form)|)
    ensures var r := Analyze(form, filename, uploadDir, t, mint, clock);
      TaskStatus(r.table, r.reply.tasks[k].taskId) == StatusOf(mint(k), Pending, None, None)
  {
    var r := Analyze(form, filename, uploadDir, t, mint, clock);
    NewRowsFound(t, r.table, |ParsePlugins(form)|, mint, k);
  }

  /**
   A table extended by `n` new `PENDING` rows with fresh, distinct ids
   finds the `k`-th of them under its own id.
   */
  lemma NewRowsFound(t: Table, table: Table, n: nat, mint: nat -> string, k: nat)
    requires k < n && FreshIds(t, mint, n)
    requires |table| == |t| + n && table[..|t|] == t
    requires forall j :: |t| <= j < |table| ==>
      table[j].taskId == mint(j - |t|) && table[j].status == Pending
      && table[j].resultPath == None && table[j].geminiAnalysis == None
    ensures TaskStatus(table, mint(k)) == StatusOf(mint(k), Pending, None, None)
  {
    var id := mint(k);
    assert table[|t| + k].taskId == id;
    forall j | 0 <= j < |t| + k ensures table[j].taskId != id {
      if j < |t| {
        assert table[j] == table[..|t|][j] == t[j];
      } else {
        assert table[|t| + (j - |t|)].taskId == mint(j - |t|);
      }
    }
    FirstMatchAt(table, id, |t| + k);
  }

  /** An annotation service that answers `clean` to every prompt. */
  function CleanService(): GeminiAnalyzer.Service {
    GeminiAnalyzer.Service(None, (model, request) => GeminiAnalyzer.Generated("clean"))
  }

  /** The engine exits cleanly and leaves the six characters `proc A` in the result file. */
  function CleanRun(): Worker.Env {
    Worker.Env(map[], Worker.Exited(0), Worker.Present(6), Worker.Contents("proc A"), CleanService())
  }

  /** The engine exits with code 1, which `os.system` reports as wait status 256. */
  function FailingRun(): Worker.Env {
    Worker.Env(map[], Worker.Exited(256), Worker.Missing, Worker.Contents(""), CleanService())
  }

  lemma ScenarioParse()
    ensures ParsePlugins("pslist,psscan") == ["pslist", "psscan"]
  {
    assert "pslist,psscan" == "pslist" + "," + "psscan";
    ParseTwo("pslist", "psscan");
  }

  lemma CleanRunWrites(outputDir: string, image: string)
    ensures Worker.Applied(Worker.AnalyzeMemory(outputDir, image, "pslist", CleanRun()).attempts)
         == [Worker.StartedWrite, Write(Completed, Some(Worker.ResultFile(outputDir, "pslist", image)), Some("clean"))]
  {
    var rf := Worker.ResultFile(outputDir, "pslist", image);
    Worker.CleanRunCompletes(outputDir, image, "pslist", CleanRun(), "proc A");
    assert GeminiAnalyzer.AnalyzeWithGemini("proc A", "pslist", CleanService()) == "clean";
    var done := Write(Completed, Some(rf), Some("clean"));
    var a1 := Worker.AnalyzeMemory(outputDir, image, "pslist", CleanRun()).attempts;
    assert a1 == [Worker.Attempt(Worker.StartedWrite, true), Worker.Attempt(done, true)];
    assert Worker.Applied(a1) == [Worker.StartedWrite] + Worker.Applied([Worker.Attempt(done, true)]);
  }

  lemma FailingRunWrites(outputDir: string, image: string)
    ensures Worker.Applied(Worker.AnalyzeMemory(outputDir, image, "psscan", FailingRun()).attempts)
         == [Worker.StartedWrite, Worker.FailedWrite]
  {
    Worker.NonZeroExitFails(outputDir, image, "psscan", FailingRun(), 256);
    var a2 := Worker.AnalyzeMemory(outputDir, image, "psscan", FailingRun()).attempts;
    assert Worker.Applied(a2) == [Worker.StartedWrite] + Worker.Applied([Worker.Attempt(Worker.FailedWrite, true)]);
  }

  /** Two tasks' write series applied one after the other, on a table holding one row of each. */
  lemma TwoTasksUpdated(t0: Table, id0: string, id1: string, done: Write)
    requires |t0| == 2 && t0[0].taskId == id0 && t0[1].taskId == id1 && id0 != id1
    ensures var t1 := ApplyWrites(t0, id0, [Worker.StartedWrite, done]);
      var t2 := ApplyWrites(t1, id1, [Worker.StartedWrite, Worker.FailedWrite]);
      && TaskStatus(t2, id0) == StatusOf(id0, done.status, done.resultPath, done.geminiAnalysis)
      && TaskStatus(t2, id1) == StatusOf(id1, Failed, None, None)
  {
    ApplyTwo(t0, id0, Worker.StartedWrite, done);
    var u := UpdateDb(t0, id0, Worker.StartedWrite);
    var v := UpdateDb(u, id0, done);
    ApplyTwo(v, id1, Worker.StartedWrite, Worker.FailedWrite);
    var w := UpdateDb(v, id1, Worker.StartedWrite);
    var x := UpdateDb(w, id1, Worker.FailedWrite);
    assert x[0] == Overwrite(t0[0], done);
    assert x[1] == Overwrite(t0[1], Worker.FailedWrite);
    FirstMatchAt(x, id0, 0);
    FirstMatchAt(x, id1, 1);
  }

  /** Two plugins give two reply entries, in list order. */
  lemma FanOutTwo(a: string, b: string, imagePath: string, filename: string, mint: nat -> string, clock: nat -> int)
    ensures FanOut([a, b], 0, imagePath, filename, [], mint, clock).tasks == [TaskRef(a, mint(0)), TaskRef(b, mint(1))]
  {
    var tasks := FanOut([a, b], 0, imagePath, filename, [], mint, clock).tasks;
    assert tasks[0] == TaskRef(a, mint(0 + 0));
    assert tasks[1] == TaskRef(b, mint(0 + 1));
  }

  /** A form that parses to two plugins yields two reply entries, in that order. */
  lemma SubmitTwoTasks(form: string, a: string, b: string, uploadDir: string, mint: nat -> string, clock: nat -> int)
    requires ParsePlugins(form) == [a, b]
    ensures Analyze(form, "mem.img", uploadDir, [], mint, clock).reply.tasks
         == [TaskRef(a, mint(0)), TaskRef(b, mint(1))]
  {
    FanOutTwo(a, b, PathJoin(uploadDir, "mem.img"), "mem.img", mint, clock);
  }

  /** A form that parses to two plugins yields two new rows, in that order. */
  lemma SubmitTwoRows(form: string, a: string, b: string, uploadDir: string, mint: nat -> string, clock: nat -> int)
    requires ParsePlugins(form) == [a, b]
    ensures var s := Analyze(form, "mem.img", uploadDir, [], mint, clock);
      |s.table| == 2 && s.table[0].taskId == mint(0) && s.table[1].taskId == mint(1)
  {
    var s := Analyze(form, "mem.img", uploadDir, [], mint, clock);
    assert s.table[1].taskId == mint(1 - 0);
  }

  /**
   The end-to-end scenario: `pslist,psscan` is submitted for `mem.img`;
   `pslist` runs cleanly with output `proc A` annotated `clean`, while the
   engine exits with code 1 for `psscan`. Afterwards `pslist` reads
   `COMPLETED` with annotation `clean`, and `psscan` reads `FAILED` with no
   result path.
   */
  lemma Scenario(form: string, uploadDir: string, outputDir: string, mint: nat -> string, clock: nat -> int)
    requires form == "pslist,psscan"
    requires mint(0) != mint(1)
    ensures var s := Analyze(form, "mem.img", uploadDir, [], mint, clock);
      var image := PathJoin(uploadDir, "mem.img");
      var t1 := ApplyWrites(s.table, mint(0), Worker.Applied(Worker.AnalyzeMemory(outputDir, image, "pslist", CleanRun()).attempts));
      var t2 := ApplyWrites(t1, mint(1), Worker.Applied(Worker.AnalyzeMemory(outputDir, image, "psscan", FailingRun()).attempts));
      && s.reply.tasks == [TaskRef("pslist", mint(0)), TaskRef("psscan", mint(1))]
      && TaskStatus(t2, mint(0)) == StatusOf(mint(0), Completed, Some(Worker.ResultFile(outputDir, "pslist", image)), Some("clean"))
      && TaskStatus(t2, mint(1)) == StatusOf(mint(1), Failed, None, None)
  {
    ScenarioParse();
    SubmitTwoTasks(form, "pslist", "psscan", uploadDir, mint, clock);
    SubmitTwoRows(form, "pslist", "psscan", uploadDir, mint, clock);
    var s := Analyze(form, "mem.img", uploadDir, [], mint, clock);
    var image := PathJoin(uploadDir, "mem.img");
    CleanRunWrites(outputDir, image);
    FailingRunWrites(outputDir, image);
    TwoTasksUpdated(s.table, mint(0), mint(1), Write(Completed, Some(Worker.ResultFile(outputDir, "pslist", image)), Some("clean")));
  }
}

=== FILE: text.dfy ===
/**
 The few string and path primitives of the Python standard library the core
 relies on: `str.isspace`, `str.strip`, `str.split(sep)`, `sep.join`,
 `os.path.basename`, two-argument `os.path.join` and `str(int)`.
 */
module Text {

  /** `c.isspace()`: the characters CPython classifies as whitespace. */
  predicate IsSpace(c: char) {
    var n := c as int;
    || n == 0x20 || 0x09 <= n <= 0x0D || 0x1C <= n <= 0x1F
    || n == 0x85 || n == 0xA0 || n == 0x1680 || 0x2000 <= n <= 0x200A
    || n == 0x2028 || n == 0x2029 || n == 0x202F || n == 0x205F || n == 0x3000
  }

  predicate AllSpace(s: string) {
    forall i :: 0 <= i < |s| ==> IsSpace(s[i])
  }

  /** No whitespace at either end. */
  predicate Stripped(s: string) {
    s == [] || (!IsSpace(s[0]) && !IsSpace(s[|s| - 1]))
  }

  /** Number of leading whitespace characters. */
  function LeadingSpace(s: string): (n: nat)
    ensures n <= |s|
    ensures forall i :: 0 <= i < n ==> IsSpace(s[i])
    ensures n == |s| || !IsSpace(s[n])
  {
    if s == [] || !IsSpace(s[0]) then 0
    else
      var n := 1 + LeadingSpace(s[1..]);
      assert forall i :: 1 <= i < n ==> s[i] == s[1..][i - 1];
      n
  }

  /** Number of trailing whitespace characters. */
  function TrailingSpace(s: string): (n: nat)
    ensures n <= |s|
    ensures forall i :: |s| - n <= i < |s| ==> IsSpace(s[i])
    ensures n == |s| || !IsSpace(s[|s| - n - 1])
  {
    if s == [] || !IsSpace(s[|s| - 1]) then 0
    else 1 + TrailingSpace(s[..|s| - 1])
  }

  /**
   `s.strip()`: the part of `s` left after removing whitespace from both ends,
   a contiguous piece of `s` with only whitespace around it. It is blank
   exactly when `s` is all whitespace.
   */
  function Strip(s: string): (r: string)
    ensures Stripped(r)
    ensures LeadingSpace(s) + |r| <= |s|
    ensures forall i :: 0 <= i < |r| ==> r[i] == s[LeadingSpace(s) + i]
    ensures forall i :: LeadingSpace(s) + |r| <= i < |s| ==> IsSpace(s[i])
    ensures r == [] <==> AllSpace(s)
  {
    var a := LeadingSpace(s);
    if a == |s| then []
    else
      var k := TrailingSpace(s);
      assert a < |s| - k by {
        assert !IsSpace(s[a]);
      }
      s[a..|s| - k]
  }

  /** Stripping a string with no whitespace at its ends leaves it unchanged. */
  lemma StripStripped(s: string)
    requires Stripped(s)
    ensures Strip(s) == s
  {
    assert LeadingSpace(s) == 0;
    assert TrailingSpace(s) == 0;
  }

  function Count(s: string, c: char): nat {
    if s == [] then 0 else (if s[0] == c then 1 else 0) + Count(s[1..], c)
  }

  /** `sep.join(parts)` for a one-character separator. */
  function Join(parts: seq<string>, sep: char): string {
    if parts == [] then []
    else parts[0] + (if |parts| == 1 then [] else [sep] + Join(parts[1..], sep))
  }

  /**
   `s.split(sep)` for a one-character separator: always one more piece than
   there are separators, and no piece contains the separator.
   */
  function Split(s: string, sep: char): (r: seq<string>)
    ensures |r| == Count(s, sep) + 1
    ensures forall i :: 0 <= i < |r| ==> sep !in r[i]
  {
    if s == [] then [[]]
    else
      var rest := Split(s[1..], sep);
      if s[0] == sep then [[]] + rest
      else [[s[0]] + rest[0]] + rest[1..]
  }

  /** Joining the pieces of a split gives the original string back. */
  lemma {:induction false} JoinSplit(s: string, sep: char)
    ensures Join(Split(s, sep), sep) == s
  {
    if s != [] {
      var rest := Split(s[1..], sep);
      JoinSplit(s[1..], sep);
      if s[0] != sep {
        var r := Split(s, sep);
        assert r[1..] == rest[1..];
      }
    }
  }

  /** Splitting at a separator splits the pieces on either side independently. */
  lemma {:induction false} SplitAppend(a: string, sep: char, b: string)
    ensures Split(a + [sep] + b, sep) == Split(a, sep) + Split(b, sep)
  {
    if a == [] {
      assert a + [sep] + b == [sep] + b;
    } else {
      assert (a + [sep] + b)[1..] == a[1..] + [sep] + b;
      SplitAppend(a[1..], sep, b);
    }
  }

  /** A string without the separator splits into itself. */
  lemma {:induction false} SplitNoSep(s: string, sep: char)
    requires sep !in s
    ensures Split(s, sep) == [s]
  {
    if s != [] {
      assert sep !in s[1..];
      SplitNoSep(s[1..], sep);
      assert s == [s[0]] + s[1..];
    }
  }

  /** Splitting a join of separator-free pieces gives the pieces back. */
  lemma {:induction false} SplitJoin(parts: seq<string>, sep: char)
    requires parts != []
    requires forall i :: 0 <= i < |parts| ==> sep !in parts[i]
    ensures Split(Join(parts, sep), sep) == parts
  {
    SplitNoSep(parts[0], sep);
    if |parts| == 1 {
      assert Join(parts, sep) == parts[0] + [] == parts[0];
      assert parts == [parts[0]];
    } else {
      SplitJoin(parts[1..], sep);
      SplitAppend(parts[0], sep, Join(parts[1..], sep));
      assert Join(parts, sep) == parts[0] + [sep] + Join(parts[1..], sep);
      assert parts == [parts[0]] + parts[1..];
    }
  }

  /** `os.path.basename(p)`: the longest suffix of `p` without a `/`. */
  function Basename(p: string): (r: string)
    ensures |r| <= |p|
    ensures forall i :: 0 <= i < |r| ==> r[i] == p[|p| - |r| + i]
    ensures '/' !in r
    ensures |r| == |p| || p[|p| - |r| - 1] == '/'
  {
    if p == [] || p[|p| - 1] == '/' then []
    else Basename(p[..|p| - 1]) + [p[|p| - 1]]
  }

  /**
   Two-argument `os.path.join(a, b)` on POSIX: an absolute `b` replaces `a`;
   otherwise `b` is appended after a single `/`.
   */
  function PathJoin(a: string, b: string): (r: string)
    ensures b != [] && b[0] == '/' ==> r == b
    ensures (b == [] || b[0] != '/') ==> |a| + |b| <= |r| && r[..|a|] == a && r[|r| - |b|..] == b
    ensures (b == [] || b[0] != '/') && a != [] && a[|a| - 1] != '/' ==> |a| < |r| && r[|a|] == '/'
    ensures (b == [] || b[0] != '/') ==> |r| == |a| + |b| + (if a != [] && a[|a| - 1] != '/' then 1 else 0)
  {
    if b != [] && b[0] == '/' then b
    else if a == [] || a[|a| - 1] == '/' then a + b
    else a + "/" + b
  }

  /** The number a string of decimal digits denotes, most significant digit first. */
  function DecimalValue(s: string): int {
    if s == [] then 0 else 10 * DecimalValue(s[..|s| - 1]) + (s[|s| - 1] as int - '0' as int)
  }

  /** A decimal digit. */
  function Digit(d: nat): (c: char)
    requires d < 10
    ensures '0' <= c <= '9'
    ensures c as int - '0' as int == d
  {
    "0123456789"[d]
  }

  /** The decimal digits of `n`, with no leading zero. */
  function DigitsOf(n: nat): (r: string)
    ensures r != []
    ensures forall i :: 0 <= i < |r| ==> '0' <= r[i] <= '9'
    ensures DecimalValue(r) == n
    ensures r[0] == '0' ==> n == 0
  {
    if n < 10 then [Digit(n)]
    else
      var high := DigitsOf(n / 10);
      var r := high + [Digit(n % 10)];
      assert r[..|r| - 1] == high;
      r
  }

  /** `str(n)` for an integer: decimal digits, with a leading `-` when negative. */
  function IntToString(n: int): (r: string)
    ensures r != []
    ensures (r[0] == '-') <==> n < 0
  {
    if n < 0 then "-" + DigitsOf(-n) else DigitsOf(n)
  }

  /**
   After the sign, `str(n)` is non-empty decimal digits without a leading
   zero whose value is the magnitude of `n`.
   */
  lemma IntToStringValue(n: int)
    ensures var r := IntToString(n);
      var digits := if n < 0 then r[1..] else r;
      && digits != []
      && (forall i :: 0 <= i < |digits| ==> '0' <= digits[i] <= '9')
      && DecimalValue(digits) == (if n < 0 then -n else n)
      && (digits[0] == '0' ==> n == 0)
  {
    if n < 0 {
      assert ("-" + DigitsOf(-n))[1..] == DigitsOf(-n);
    }
  }

  /** Different integers have different decimal texts. */
  lemma IntToStringInjective(a: int, b: int)
    requires IntToString(a) == IntToString(b)
    ensures a == b
  {
    IntToStringValue(a);
    IntToStringValue(b);
  }

  /** Where each part of a five-part concatenation sits. */
  lemma Embed(a: string, b: string, c: string, d: string, e: string)
    ensures var p := a + b + c + d + e;
      && |p| == |a| + |b| + |c| + |d| + |e|
      && p[..|a|] == a
      && p[|a|..|a| + |b|] == b
      && p[|a| + |b| + |c|..|p| - |e|] == d
      && p[|p| - |e|..] == e
  {
  }
}

=== FILE: worker.dfy ===
/**
 The Celery task `analyze_memory` (app/main.py lines 86-124) as a pure
 function. Its collaborators become one outcome value: how each `update_db`
 call fares, what `os.system` returns, what the result-file check and read
 give, and the Gemini service. The result is the sequence of `update_db`
 calls made, each flagged with whether it took effect, and what the task
 returned or raised.
 */
module Worker {
  import opened Wrappers
  import opened Text
  import opened TaskStore
  import GeminiAnalyzer

  /** `os.system(cmd)`: its wait status, or the message of an exception. */
  datatype EngineRun = EngineRaised(message: string) | Exited(status: int)

  /** `os.path.exists(f)` then `os.path.getsize(f)`. */
  datatype ResultCheck = CheckRaised(message: string) | Missing | Present(size: nat)

  /** `open(f).read()`. */
  datatype ResultRead = ReadRaised(message: string) | Contents(text: string)

  /**
   One execution's environment. `storeFaults[k]` is the message raised by the
   `k`-th `update_db` call of this execution (counting from 0), if it raises.
   */
  datatype Env = Env(
    storeFaults: map<nat, string>,
    engine: EngineRun,
    check: ResultCheck,
    read: ResultRead,
    gemini: GeminiAnalyzer.Service)

  datatype Attempt = Attempt(write: Write, applied: bool)

  /** What the task function returns, or the exception that escapes it. */
  datatype Outcome = Returned(value: string) | Raised(message: string)

  datatype Execution = Execution(attempts: seq<Attempt>, outcome: Outcome)

  const StartedWrite := Write(Started, None, None)
  const FailedWrite := Write(Failed, None, None)

  /** `os.path.join(OUTPUT_DIR, f"{plugin}_{os.path.basename(image_path)}.txt")`. */
  function ResultFile(outputDir: string, plugin: string, imagePath: string): string {
    PathJoin(outputDir, plugin + "_" + Basename(imagePath) + ".txt")
  }

  /**
   The result file depends on the image only through its basename: two
   images with the same file name share one result file per plugin. When the
   plugin name does not start with `/`, the file's text starts with the output
   directory's text; `..` segments in the name can still lead outside it.
   */
  lemma ResultFileShape(outputDir: string, plugin: string, image1: string, image2: string)
    requires Basename(image1) == Basename(image2)
    ensures ResultFile(outputDir, plugin, image1) == ResultFile(outputDir, plugin, image2)
    ensures (plugin == [] || plugin[0] != '/') ==>
      var f := ResultFile(outputDir, plugin, image1);
      var name := plugin + "_" + Basename(image1) + ".txt";
      |outputDir| + |name| <= |f| && f[..|outputDir|] == outputDir && f[|f| - |name|..] == name
    ensures plugin != [] && plugin[0] == '/' ==>
      ResultFile(outputDir, plugin, image1) == plugin + "_" + Basename(image1) + ".txt"
  {
  }

  /** The failure texts all open with the plugin name in quotes. */
  const PluginQuote := "Plugin '"

  /** `s` holds `plugin` right after the opening `Plugin '`. */
  predicate NamesPlugin(s: string, plugin: string) {
    |PluginQuote| + |plugin| < |s| && s[..|PluginQuote|] == PluginQuote
    && s[|PluginQuote|..|PluginQuote| + |plugin|] == plugin && s[|PluginQuote| + |plugin|] == '\''
  }

  predicate EndsWith(s: string, suffix: string) {
    |suffix| <= |s| && s[|s| - |suffix|..] == suffix
  }

  function ExitCodeText(plugin: string, status: int): string {
    PluginQuote + plugin + (ExitCodeMiddle + IntToString(status))
  }

  function NoOutputText(plugin: string): string {
    PluginQuote + plugin + NoOutputTail
  }

  function ErrorText(plugin: string, message: string): string {
    PluginQuote + plugin + (ErrorMiddle + message)
  }

  const ExitCodeMiddle := "' failed with exit code "
  const NoOutputTail := "' produced no output"
  const ErrorMiddle := "' failed with error: "

  /**
   Each failure text names the plugin right after the opening quote; the exit
   status text ends with the status and the error text with the message.
   */
  lemma FailureTextsShape(plugin: string, status: int, message: string)
    ensures NamesPlugin(ExitCodeText(plugin, status), plugin) && EndsWith(ExitCodeText(plugin, status), IntToString(status))
    ensures NamesPlugin(NoOutputText(plugin), plugin) && EndsWith(NoOutputText(plugin), NoOutputTail)
    ensures NamesPlugin(ErrorText(plugin, message), plugin) && EndsWith(ErrorText(plugin, message), message)
  {
    Quoted(plugin, ExitCodeMiddle + IntToString(status));
    Quoted(plugin, NoOutputTail);
    Quoted(plugin, ErrorMiddle + message);
  }

  /**
   The three texts tell the three failures apart: for one plugin, no exit
   status text equals the no-output text or any error text, and the
   no-output text equals no error text.
   */
  lemma FailureTextsDiffer(plugin: string, status: int, message: string)
    ensures ExitCodeText(plugin, status) != NoOutputText(plugin)
    ensures ExitCodeText(plugin, status) != ErrorText(plugin, message)
    ensures NoOutputText(plugin) != ErrorText(plugin, message)
  {
    var digits := IntToString(status);
    assert ExitCodeMiddle[2] == 'f' && NoOutputTail[2] == 'p' && ErrorMiddle[2] == 'f';
    assert ExitCodeMiddle[15] == 'x' && ErrorMiddle[15] == 'r';
    assert NoOutputTail + "" == NoOutputTail;
    QuotedDiffer(plugin, ExitCodeMiddle, digits, NoOutputTail, "", 2);
    QuotedDiffer(plugin, ExitCodeMiddle, digits, ErrorMiddle, message, 15);
    QuotedDiffer(plugin, NoOutputTail, "", ErrorMiddle, message, 2);
  }

  /** Two rests whose heads differ at some position give different texts for the same plugin. */
  lemma QuotedDiffer(plugin: string, a: string, sa: string, b: string, sb: string, i: nat)
    requires i < |a| && i < |b| && a[i] != b[i]
    ensures PluginQuote + plugin + (a + sa) != PluginQuote + plugin + (b + sb)
  {
    var n := |PluginQuote| + |plugin|;
    assert (PluginQuote + plugin + (a + sa))[n + i] == a[i];
    assert (PluginQuote + plugin + (b + sb))[n + i] == b[i];
  }

  /** Where the plugin name and the rest sit in a quoted failure text. */
  lemma Quoted(plugin: string, rest: string)
    requires rest != [] && rest[0] == '\''
    ensures var s := PluginQuote + plugin + rest;
      NamesPlugin(s, plugin) && EndsWith(s, rest)
  {
  }

  /**
   What the `try` block does once `STARTED` is written: raise, or make one
   closing `update_db` call and return a value.
   */
  datatype Decision = Throws(message: string) | Closes(write: Write, value: string)

  /**
   The decision procedure: a non-zero wait status or a missing or empty
   result file closes with `FAILED` and both columns cleared; a clean exit
   with a non-empty file closes with `COMPLETED`, the result file and the
   annotation of its contents; an exception from the engine, the file check
   or the read is raised.
   */
  function Decide(outputDir: string, imagePath: string, plugin: string, env: Env): (d: Decision)
    ensures d.Closes? ==> d.write.status.IsTerminal()
    ensures (d.Closes? && d.write.status == Completed) <==> CleanOutput(env)
    ensures d.Closes? && d.write.status == Completed ==>
      d.write.resultPath == Some(ResultFile(outputDir, plugin, imagePath))
      && d.write.geminiAnalysis == Some(GeminiAnalyzer.AnalyzeWithGemini(env.read.text, plugin, env.gemini))
      && d.value == ResultFile(outputDir, plugin, imagePath)
    ensures d.Closes? && d.write.status != Completed ==> d.write == FailedWrite
    ensures env.engine.EngineRaised? ==> d == Throws(env.engine.message)
    ensures env.engine == Exited(0) && env.check.CheckRaised? ==> d == Throws(env.check.message)
    ensures env.engine == Exited(0) && env.check.Present? && env.check.size > 0 && env.read.ReadRaised? ==>
      d == Throws(env.read.message)
  {
    match env.engine
    case EngineRaised(m) => Throws(m)
    case Exited(status) =>
      if status != 0 then Closes(FailedWrite, ExitCodeText(plugin, status))
      else match env.check
        case CheckRaised(m) => Throws(m)
        case Missing => Closes(FailedWrite, NoOutputText(plugin))
        case Present(size) =>
          if size == 0 then Closes(FailedWrite, NoOutputText(plugin))
          else match env.read
            case ReadRaised(m) => Throws(m)
            case Contents(text) =>
              var resultFile := ResultFile(outputDir, plugin, imagePath);
              Closes(Write(Completed, Some(resultFile), Some(GeminiAnalyzer.AnalyzeWithGemini(text, plugin, env.gemini))),
                     resultFile)
  }

  /** How control leaves the `try` block, with the store calls made so far. */
  datatype TryExit = Normal(value: string) | Thrown(message: string)

  datatype Exit = Exit(log: seq<Attempt>, exit: TryExit)

  /**
   The column rule of every write the task makes: `COMPLETED` carries the
   result file and an annotation, any other status clears both columns.
   */
  predicate ColumnsFit(w: Write, resultFile: string) {
    if w.status == Completed then w.resultPath == Some(resultFile) && w.geminiAnalysis.Some?
    else w.resultPath == None && w.geminiAnalysis == None
  }

  /**
   The `try` block: `update_db(STARTED)` (store call 0), then the decision,
   whose closing write is store call 1. Control leaves normally exactly when
   that closing write took effect.
   */
  function TryBlock(outputDir: string, imagePath: string, plugin: string, env: Env): (e: Exit)
    ensures 1 <= |e.log| <= 2
    ensures e.log[0].write == StartedWrite
    ensures forall k :: 0 <= k < |e.log| ==> (e.log[k].applied <==> k !in env.storeFaults)
    ensures e.exit.Normal? <==> |e.log| == 2 && e.log[1].applied
    ensures |e.log| == 2 ==> e.log[1].write.status.IsTerminal()
    ensures |e.log| == 2 ==> ColumnsFit(e.log[1].write, ResultFile(outputDir, plugin, imagePath))
  {
    if 0 in env.storeFaults then Exit([Attempt(StartedWrite, false)], Thrown(env.storeFaults[0]))
    else match Decide(outputDir, imagePath, plugin, env)
      case Throws(m) => Exit([Attempt(StartedWrite, true)], Thrown(m))
      case Closes(w, v) =>
        if 1 in env.storeFaults then Exit([Attempt(StartedWrite, true), Attempt(w, false)], Thrown(env.storeFaults[1]))
        else Exit([Attempt(StartedWrite, true), Attempt(w, true)], Normal(v))
  }

  /**
   `analyze_memory`: the first store call marks the task `STARTED`; every
   later one writes a terminal status, and only the last can take effect. The
   task returns normally exactly when that last call took effect, so a
   normal return leaves one terminal write applied and an escaping exception
   none. A `COMPLETED` write carries the result file and an annotation;
   every other write clears both columns.
   */
  function AnalyzeMemory(outputDir: string, imagePath: string, plugin: string, env: Env): (r: Execution)
    ensures 2 <= |r.attempts| <= 3
    ensures r.attempts[0].write == StartedWrite
    ensures forall k :: 1 <= k < |r.attempts| ==> r.attempts[k].write.status.IsTerminal()
    ensures forall k :: 1 <= k < |r.attempts| - 1 ==> !r.attempts[k].applied
    ensures |r.attempts| == 3 ==> r.attempts[2].write == FailedWrite
    ensures r.outcome.Returned? <==> r.attempts[|r.attempts| - 1].applied
    ensures forall k :: 0 <= k < |r.attempts| ==> (r.attempts[k].applied <==> k !in env.storeFaults)
    ensures forall k :: 0 <= k < |r.attempts| ==> ColumnsFit(r.attempts[k].write, ResultFile(outputDir, plugin, imagePath))
    ensures forall k :: 0 <= k < |r.attempts| && r.attempts[k].write.status == Completed ==>
      k == 1 && r.attempts[0].applied && CleanOutput(env)
    ensures !r.attempts[0].applied ==> |r.attempts| == 2 && r.attempts[1].write == FailedWrite
  {
    var e := TryBlock(outputDir, imagePath, plugin, env);
    match e.exit
    case Normal(v) => Execution(e.log, Returned(v))
    case Thrown(m) =>
      var k := |e.log|;
      var handler := Attempt(FailedWrite, k !in env.storeFaults);
      var attempts := if k == 1 then [e.log[0], handler] else [e.log[0], e.log[1], handler];
      if k in env.storeFaults then Execution(attempts, Raised(env.storeFaults[k]))
      else Execution(attempts, Returned(ErrorText(plugin, m)))
  }

  /** The writes that took effect, in order. */
  function Applied(attempts: seq<Attempt>): (ws: seq<Write>)
    ensures |ws| <= |attempts|
    ensures forall i :: 0 <= i < |ws| ==> exists k :: 0 <= k < |attempts| && attempts[k].applied && attempts[k].write == ws[i]
    ensures (forall k :: 0 <= k < |attempts| ==> attempts[k].applied) ==> ws == seq(|attempts|, k requires 0 <= k < |attempts| => attempts[k].write)
    ensures (forall k :: 0 <= k < |attempts| ==> !attempts[k].applied) ==> ws == []
  {
    if attempts == [] then []
    else
      var rest := Applied(attempts[1..]);
      var head := if attempts[0].applied then [attempts[0].write] else [];
      forall i | 0 <= i < |head + rest|
        ensures exists k :: 0 <= k < |attempts| && attempts[k].applied && attempts[k].write == (head + rest)[i]
      {
        if i >= |head| {
          var k :| 0 <= k < |attempts[1..]| && attempts[1..][k].applied && attempts[1..][k].write == rest[i - |head|];
          assert attempts[k + 1] == attempts[1..][k];
        }
      }
      head + rest
  }

  /** The applied writes of two attempt sequences in a row are those of each, in order. */
  lemma {:induction false} AppliedAppend(a: seq<Attempt>, b: seq<Attempt>)
    ensures Applied(a + b) == Applied(a) + Applied(b)
  {
    if a == [] {
      assert a + b == b;
    } else {
      assert (a + b)[0] == a[0];
      assert (a + b)[1..] == a[1..] + b;
      AppliedAppend(a[1..], b);
      var head := if a[0].applied then [a[0].write] else [];
      assert Applied(a + b) == head + (Applied(a[1..]) + Applied(b));
      assert head + (Applied(a[1..]) + Applied(b)) == (head + Applied(a[1..])) + Applied(b);
    }
  }

  function CountTerminal(ws: seq<Write>): nat {
    if ws == [] then 0 else (if ws[0].status.IsTerminal() then 1 else 0) + CountTerminal(ws[1..])
  }

  /**
   In an attempt sequence shaped like an execution's, the applied writes are
   the first write if it took effect, then the last one if it took effect.
   */
  lemma AppliedOfExecution(a: seq<Attempt>)
    requires 2 <= |a| <= 3
    requires forall k :: 1 <= k < |a| - 1 ==> !a[k].applied
    ensures Applied(a) == (if a[0].applied then [a[0].write] else [])
                        + (if a[|a| - 1].applied then [a[|a| - 1].write] else [])
  {
    var last := a[|a| - 1];
    assert Applied([last]) == (if last.applied then [last.write] else []) + Applied([]);
    if |a| == 3 {
      assert a[1..][1..] == [last];
    } else {
      assert a[1..] == [last];
    }
  }

  /**
   The bookkeeping argument behind the discipline: a `STARTED` write
   followed by terminal writes of which only the last may take effect leaves
   one applied terminal write, the last applied one, when that last write
   took effect, and none otherwise.
   */
  lemma CountOfExecution(a: seq<Attempt>)
    requires 2 <= |a| <= 3
    requires a[0].write == StartedWrite
    requires forall k :: 1 <= k < |a| ==> a[k].write.status.IsTerminal()
    requires forall k :: 1 <= k < |a| - 1 ==> !a[k].applied
    ensures var ws := Applied(a);
      && (a[|a| - 1].applied ==> ws != [] && ws[|ws| - 1].status.IsTerminal() && CountTerminal(ws) == 1)
      && (!a[|a| - 1].applied ==> CountTerminal(ws) == 0)
  {
    AppliedOfExecution(a);
    var w := a[|a| - 1].write;
    assert [a[0].write, w][1..] == [w];
  }

  /**
   Every execution ends in exactly one applied terminal write, and it is the
   last applied write, unless an exception escapes, in which case no terminal
   write took effect.
   */
  lemma TerminalDiscipline(outputDir: string, imagePath: string, plugin: string, env: Env)
    ensures var r := AnalyzeMemory(outputDir, imagePath, plugin, env);
      var ws := Applied(r.attempts);
      && (r.outcome.Returned? ==> ws != [] && ws[|ws| - 1].status.IsTerminal() && CountTerminal(ws) == 1)
      && (r.outcome.Raised? ==> CountTerminal(ws) == 0)
  {
    CountOfExecution(AnalyzeMemory(outputDir, imagePath, plugin, env).attempts);
  }

  /** A clean exit, and a non-empty result file that could be read. */
  predicate CleanOutput(env: Env) {
    env.engine == Exited(0) && env.check.Present? && env.check.size > 0 && env.read.Contents?
  }

  /** Enrichment is asked only when, in addition, `STARTED` was written. */
  predicate ReachesEnrichment(env: Env) {
    0 !in env.storeFaults && CleanOutput(env)
  }

  /**
   The decision consults the Gemini service only for its annotation: with
   another service it throws or closes alike, with the same status and the
   same return value, and off the clean-output path it is the same decision.
   */
  lemma DecideIgnoresService(outputDir: string, imagePath: string, plugin: string,
                             env: Env, other: GeminiAnalyzer.Service)
    ensures var d1 := Decide(outputDir, imagePath, plugin, env);
      var d2 := Decide(outputDir, imagePath, plugin, env.(gemini := other));
      && (!CleanOutput(env) ==> d1 == d2)
      && (d1.Throws? ==> d1 == d2)
      && (d1.Closes? ==> d2.Closes? && d1.write.status == d2.write.status && d1.value == d2.value)
  {
    var d1 := Decide(outputDir, imagePath, plugin, env);
    var d2 := Decide(outputDir, imagePath, plugin, env.(gemini := other));
    assert CleanOutput(env) == CleanOutput(env.(gemini := other));
    if CleanOutput(env) {
      assert d1.Closes? && d2.Closes? && d1.write.status == Completed == d2.write.status;
    }
  }

  /** Off that path, the Gemini service has no influence on the execution at all. */
  lemma EnrichmentOnlyAfterOutput(outputDir: string, imagePath: string, plugin: string,
                                  env: Env, other: GeminiAnalyzer.Service)
    requires !ReachesEnrichment(env)
    ensures AnalyzeMemory(outputDir, imagePath, plugin, env)
         == AnalyzeMemory(outputDir, imagePath, plugin, env.(gemini := other))
  {
    var env2 := env.(gemini := other);
    if 0 !in env.storeFaults {
      DecideIgnoresService(outputDir, imagePath, plugin, env, other);
    }
    assert TryBlock(outputDir, imagePath, plugin, env) == TryBlock(outputDir, imagePath, plugin, env2);
  }

  /**
   Whatever the Gemini service does, the statuses written, which writes take
   effect, and whether the task returns are the same: enrichment can never
   turn a completed task into a failed one.
   */
  lemma EnrichmentCannotFail(outputDir: string, imagePath: string, plugin: string,
                             env: Env, other: GeminiAnalyzer.Service)
    ensures var r1 := AnalyzeMemory(outputDir, imagePath, plugin, env);
      var r2 := AnalyzeMemory(outputDir, imagePath, plugin, env.(gemini := other));
      && |r1.attempts| == |r2.attempts|
      && (forall k :: 0 <= k < |r1.attempts| ==>
            r1.attempts[k].write.status == r2.attempts[k].write.status
            && r1.attempts[k].applied == r2.attempts[k].applied)
      && r1.outcome.Returned? == r2.outcome.Returned?
  {
    TryBlockIgnoresService(outputDir, imagePath, plugin, env, other);
  }

  /** The `try` block makes the same store calls, to the same effect, with any Gemini service. */
  lemma TryBlockIgnoresService(outputDir: string, imagePath: string, plugin: string,
                               env: Env, other: GeminiAnalyzer.Service)
    ensures var e1 := TryBlock(outputDir, imagePath, plugin, env);
      var e2 := TryBlock(outputDir, imagePath, plugin, env.(gemini := other));
      && |e1.log| == |e2.log| && e1.exit.Normal? == e2.exit.Normal?
      && (forall k :: 0 <= k < |e1.log| ==>
            e1.log[k].write.status == e2.log[k].write.status && e1.log[k].applied == e2.log[k].applied)
  {
    DecideIgnoresService(outputDir, imagePath, plugin, env, other);
  }

  /** A non-zero exit status: `STARTED`, then `FAILED` with both columns cleared. */
  lemma NonZeroExitFails(outputDir: string, imagePath: string, plugin: string, env: Env, status: int)
    requires env.engine == Exited(status) && status != 0
    requires 0 !in env.storeFaults && 1 !in env.storeFaults
    ensures AnalyzeMemory(outputDir, imagePath, plugin, env)
         == Execution([Attempt(StartedWrite, true), Attempt(FailedWrite, true)],
                      Returned(ExitCodeText(plugin, status)))
  {
  }

  /**
   A clean exit with a non-empty result file: `STARTED`, then one
   `COMPLETED` write carrying the result file and the annotation together.
   */
  lemma CleanRunCompletes(outputDir: string, imagePath: string, plugin: string, env: Env, text: string)
    requires env.engine == Exited(0) && env.check.Present? && env.check.size > 0
    requires env.read == Contents(text)
    requires 0 !in env.storeFaults && 1 !in env.storeFaults
    ensures var rf := ResultFile(outputDir, plugin, imagePath);
      AnalyzeMemory(outputDir, imagePath, plugin, env)
        == Execution([Attempt(StartedWrite, true),
                      Attempt(Write(Completed, Some(rf), Some(GeminiAnalyzer.AnalyzeWithGemini(text, plugin, env.gemini))), true)],
                     Returned(rf))
  {
  }

  /** A clean exit without output (file missing or empty): `STARTED`, then `FAILED`. */
  lemma NoOutputFails(outputDir: string, imagePath: string, plugin: string, env: Env)
    requires env.engine == Exited(0) && (env.check.Missing? || env.check == Present(0))
    requires 0 !in env.storeFaults && 1 !in env.storeFaults
    ensures AnalyzeMemory(outputDir, imagePath, plugin, env)
         == Execution([Attempt(StartedWrite, true), Attempt(FailedWrite, true)], Returned(NoOutputText(plugin)))
  {
  }

  /**
   An exception anywhere in the `try` block ends, when the handler's own
   store call succeeds, with `FAILED` as the last write and the error text
   as the return value.
   */
  lemma ExceptionFails(outputDir: string, imagePath: string, plugin: string, env: Env)
    requires TryBlock(outputDir, imagePath, plugin, env).exit.Thrown?
    requires |TryBlock(outputDir, imagePath, plugin, env).log| !in env.storeFaults
    ensures var r := AnalyzeMemory(outputDir, imagePath, plugin, env);
      && r.attempts[|r.attempts| - 1] == Attempt(FailedWrite, true)
      && r.outcome == Returned(ErrorText(plugin, TryBlock(outputDir, imagePath, plugin, env).exit.message))
  {
  }

  /**
   An exception from the engine is caught: `STARTED`, then the handler's
   `FAILED`, and the error text carries the engine's message.
   */
  lemma EngineErrorFails(outputDir: string, imagePath: string, plugin: string, env: Env, m: string)
    requires env.engine == EngineRaised(m)
    requires 0 !in env.storeFaults && 1 !in env.storeFaults
    ensures AnalyzeMemory(outputDir, imagePath, plugin, env)
         == Execution([Attempt(StartedWrite, true), Attempt(FailedWrite, true)], Returned(ErrorText(plugin, m)))
  {
  }

  /** An exception from the result-file check is caught the same way, with its own message. */
  lemma CheckErrorFails(outputDir: string, imagePath: string, plugin: string, env: Env, m: string)
    requires env.engine == Exited(0) && env.check == CheckRaised(m)
    requires 0 !in env.storeFaults && 1 !in env.storeFaults
    ensures AnalyzeMemory(outputDir, imagePath, plugin, env)
         == Execution([Attempt(StartedWrite, true), Attempt(FailedWrite, true)], Returned(ErrorText(plugin, m)))
  {
  }

  /** An exception from reading a non-empty result file is caught the same way, with its own message. */
  lemma ReadErrorFails(outputDir: string, imagePath: string, plugin: string, env: Env, size: nat, m: string)
    requires env.engine == Exited(0) && env.check == Present(size) && size > 0 && env.read == ReadRaised(m)
    requires 0 !in env.storeFaults && 1 !in env.storeFaults
    ensures AnalyzeMemory(outputDir, imagePath, plugin, env)
         == Execution([Attempt(StartedWrite, true), Attempt(FailedWrite, true)], Returned(ErrorText(plugin, m)))
  {
  }

  /**
   When `update_db(STARTED)` itself raises, the handler still writes `FAILED`,
   and the error text carries the store's message.
   */
  lemma StartedWriteErrorFails(outputDir: string, imagePath: string, plugin: string, env: Env)
    requires 0 in env.storeFaults && 1 !in env.storeFaults
    ensures AnalyzeMemory(outputDir, imagePath, plugin, env)
         == Execution([Attempt(StartedWrite, false), Attempt(FailedWrite, true)],
                      Returned(ErrorText(plugin, env.storeFaults[0])))
  {
  }

  /**
   Applied to a table that has the task's row, the writes of an execution
   that returned leave the row in a terminal state, with a result path
   exactly when `COMPLETED` (and then the derived result file). When an
   exception escaped, the row is `STARTED` or as it was before.
   */
  lemma ExecutionLeavesRow(t: Table, taskId: string, outputDir: string, imagePath: string, plugin: string, env: Env)
    requires exists i :: 0 <= i < |t| && t[i].taskId == taskId
    ensures var r := AnalyzeMemory(outputDir, imagePath, plugin, env);
      var reply := TaskStatus(ApplyWrites(t, taskId, Applied(r.attempts)), taskId);
      && reply.StatusOf?
      && (r.outcome.Returned? ==> reply.status.IsTerminal())
      && (r.outcome.Returned? ==> (reply.resultPath.Some? <==> reply.status == Completed))
      && (reply.status == Completed && r.outcome.Returned? ==> reply.resultPath == Some(ResultFile(outputDir, plugin, imagePath)))
      && (r.outcome.Raised? ==> reply.status == Started || reply.status == TaskStatus(t, taskId).status)
  {
    var r := AnalyzeMemory(outputDir, imagePath, plugin, env);
    RowAfterAttempts(t, taskId, r.attempts, ResultFile(outputDir, plugin, imagePath));
  }

  /** The row-level argument of `ExecutionLeavesRow`, for any attempts shaped like an execution's. */
  lemma RowAfterAttempts(t: Table, taskId: string, a: seq<Attempt>, resultFile: string)
    requires exists i :: 0 <= i < |t| && t[i].taskId == taskId
    requires 2 <= |a| <= 3
    requires a[0].write == StartedWrite
    requires forall k :: 1 <= k < |a| ==> a[k].write.status.IsTerminal()
    requires forall k :: 1 <= k < |a| - 1 ==> !a[k].applied
    requires forall k :: 0 <= k < |a| ==> ColumnsFit(a[k].write, resultFile)
    ensures var reply := TaskStatus(ApplyWrites(t, taskId, Applied(a)), taskId);
      && reply.StatusOf?
      && (a[|a| - 1].applied ==> reply.status.IsTerminal())
      && (a[|a| - 1].applied ==> (reply.resultPath.Some? <==> reply.status == Completed))
      && (reply.status == Completed && a[|a| - 1].applied ==> reply.resultPath == Some(resultFile))
      && (!a[|a| - 1].applied ==> reply.status == Started || reply.status == TaskStatus(t, taskId).status)
  {
    var ws := Applied(a);
    AppliedOfExecution(a);
    ApplyWritesKeepsLookup(t, taskId, ws, taskId);
    if ws != [] {
      StatusAfterWrites(t, taskId, ws);
      assert ColumnsFit(ws[|ws| - 1], resultFile);
    }
  }
}

=== FILE: wrappers.dfy ===
/** Python's `None`-or-value and value-or-error shapes, as datatypes. */
module Wrappers {

  /** A nullable value: `None` is SQL NULL / Python `None`. */
  datatype Option<+T> = None | Some(value: T)

  /** The outcome of an operation that may raise: `Failure` carries `str(e)`. */
  datatype Result<+T> = Success(value: T) | Failure(message: string)
}
